=== FILE: README.md ===
# Six degrees of Wikipedia, modelled in Dafny

This project models the core of a small web service that searches for a
shortest chain of links between two Wikipedia articles and classifies
articles as people through Wikidata. It covers four pieces of the
JavaScript code:

- `findPathBFS` (src/bfs.js): a level-by-level breadth-first search over
  the link graph. Each queue entry is a whole path from the start title.
  A title whose link fetch fails is skipped. The search returns the first
  path that reaches the target, with counters for explored titles, API
  calls and the layer reached.
- `getLinks` (src/wiki.js): a cache-first lookup of the titles a page
  links to. It follows the API's `continue` pagination and stores the
  result only when every request succeeded.
- `getWikibaseItemsBulk`, `isPersonBulk` and `titlesArePerson`
  (src/wikidata.js): chunked, cache-first bulk lookups. The first maps
  titles to Wikidata item ids. The second decides whether an item is a
  human (a `P31` claim with value `Q5`). The third chains the two.
- `normalizeTitle` (src/utils.js): trims a title, upper-cases every
  word-initial character and turns whitespace runs into underscores.

Modules, one per file:

- `Wrappers` (wrappers.dfy): `Option`, `Result`, and map lookup as an `Option`.
- `Seqs` (seqs.dfy): element sets, duplicate-freedom, JavaScript's
  insertion-ordered `Set` read back as an array, and ceiling division.
- `Titles` (titles.dfy): `normalizeTitle`.
- `Links` (links.dfy): `getLinks`. The remote API is an oracle from request
  parameters to a decoded response, or `None` when the request throws.
- `Bulk` (bulk.dfy): the chunk driver that both bulk lookups share. It is
  generic in the key and value types and in `fill`, the cache writes one
  request produces.
- `Wikidata` (wikidata.dfy): the three functions of src/wikidata.js, built
  on `Bulk`.
- `Graphs` (graph.dfy): the link graph as a neighbour oracle, walks, and
  the BFS layers `Reach(k)` (titles within `k` links) and `Frontier(k)`
  (titles exactly `k` links away), and the counts of titles explored
  (`Explored`) and fetched successfully (`Fetched`, `Fetches`). These give
  the search an independent reference definition.
- `Bfs` (bfs.dfy): `findPathBFS` as imperative methods with loop invariants.

The network and the caches are parameters; time is not modelled. Each cache is a map
passed in and returned. Each remote service is a function that answers or
fails. `CHUNK_SIZE` is the parameter `size`, which must be at least 1.

Points of the code's behaviour that are easy to misread:

- `normalizeTitle` is documented as capitalising the first character. The
  code upper-cases the first character of every word (`/\b\w/g`), and the
  model does that.
- A target exactly `maxDepth + 1` links away is still found. The layers
  `0 .. maxDepth` are expanded, and each link is checked against the
  target as it is discovered. `Bfs.FindPath` states exactly this: no path
  means there is no walk with at most `maxDepth + 1` links.
- In `getWikibaseItemsBulk`, a requested title that the `pageprops`
  answer does not echo back is not cached by its own request. If no other
  answer in the call echoes it, it stays uncached and reads `null`
  (`Wikidata.WbUnechoed`), and a later call for that title alone requests
  it again (`Wikidata.WbRequestedAgain`). A title of a
  failed request is cached (as `null`, unless a later answer in the same
  call echoes it with an id), and no later call requests it again
  (`Wikidata.WbFailureCached`).

## Model

| member | source | states |
|---|---|---|
| Titles.NormalizeTitle | src/utils.js:12-19 | An empty title gives the empty string. The result has no whitespace and is empty exactly when the trimmed title is. Its first character is the upper-cased first character of the trimmed title. It starts or ends with `_` exactly when the trimmed title does. |
| Titles.NormalizeIdempotent | src/utils.js:12-19 | Normalising a normalised title changes nothing. |
| Titles.Trim | src/utils.js:15 | The result is the piece of the input that starts at its first non-space; only whitespace is cut away on either side, and neither end of the result is whitespace. |
| Titles.SkipSpaces | src/utils.js:15 | The scan for the start of the trimmed title passes only whitespace and stops at the first non-space (or the end). |
| Titles.BackSpaces | src/utils.js:15 | The scan back from the end passes only whitespace and stops after the last non-space (or at the start). |
| Titles.CapitalizeAfter | src/utils.js:16 | Lengths agree; each character is upper-cased exactly when it is a word character not preceded by one (`\b\w`), and is otherwise unchanged. |
| Titles.CapitalizeEstablishes | src/utils.js:16 | After the replacement every word start is upper-case. |
| Titles.CapitalizeFixes | src/utils.js:16 | A string whose word starts are already upper-case is left unchanged by the replacement. |
| Titles.UpperKeepsClass | src/utils.js:16 | Upper-casing keeps a character's class (word character, whitespace, underscore) and is idempotent. |
| Titles.CollapseSpaces | src/utils.js:17 | The result has no whitespace and is no longer than the input; a non-empty input gives a non-empty result. |
| Titles.CollapseRun | src/utils.js:17 | A maximal whitespace run between two non-space neighbours becomes exactly one `_`, and the text around it is collapsed independently. |
| Titles.CollapseNoSpace | src/utils.js:17 | A string without whitespace is unchanged. |
| Titles.CollapseKeepsEnds | src/utils.js:17 | Non-space first and last characters survive the collapse. |
| Titles.CollapseKeepsCapitalized | src/utils.js:16-17 | Collapsing whitespace keeps every word start upper-case. |
| Titles.CapitalizeAppend | src/utils.js:16 | The word-start scan can be split anywhere: the second part is scanned in the context (after a word character or not) that the first part leaves. |
| Titles.NormalizeWord | src/utils.js:14-17 | When the trimmed title has no inner whitespace, the result has its length and each character is the trimmed title's character, upper-cased exactly at a word start. |
| Titles.NormalizeRun | src/utils.js:14-17 | A whitespace run inside the trimmed title becomes exactly one `_` between the two parts around it. Each part is normalised as if on its own, because word starts are found before the substitution. |
| Links.ContinueOverrides | src/wiki.js:42-44 | `{ ...params, ...j.continue }`: the continuation's keys override, all other parameters are kept. |
| Links.FlattenHas | src/wiki.js:37-41 | A title is collected exactly when some page of the response lists it. |
| Links.PaginateLinks | src/wiki.js:31-45 | The pagination completes exactly when the reference chain of requests, which follows every `continue`, succeeds; it then holds exactly the titles it started with plus the titles of every page of the chain. |
| Links.PaginateKeeps | src/wiki.js:21-41 | A completed pagination holds no title twice and keeps the titles already collected, in their order, in front (the insertion order of a `Set`). |
| Links.PaginateRequests | src/wiki.js:31-49 | A completed or failed pagination issued exactly the chain's requests, at least one, the failing request included; one cut off by the bound issued as many requests as the bound. |
| Links.GetLinks | src/wiki.js:12-54 | A hit returns the cached list with no request. A miss succeeds exactly when the whole chain succeeds; it then returns the chain's titles without duplicates and caches them under the title. A failure leaves the cache unchanged. |
| Links.SecondCallHits | src/wiki.js:13-18 | After a successful call, calling again with the cache it left returns the same list with no request, whatever the service does. |
| Links.OnlyOwnEntryMatters | src/wiki.js:13-18 | The result and the request count depend only on the cache entry for the title itself. |
| Seqs.AddAll | src/wiki.js:21-39 | Adding to the insertion-ordered set keeps it duplicate-free, adds exactly the new elements and keeps the existing order as a prefix. |
| Seqs.Dedup | src/wikidata.js:28 | `Array.from(new Set(titles))` is duplicate-free, has the same elements, and has one entry per distinct element. |
| Seqs.DedupSnoc | src/wikidata.js:28 | The distinct elements are listed in first-occurrence order: one more element is appended exactly when it did not occur before, and otherwise the list is unchanged. |
| Bulk.MissingKeys | src/wikidata.js:32 | `toFetch` holds exactly the chunk's uncached keys, without duplicates, and is empty exactly when the whole chunk is cached. |
| Bulk.RunChunk | src/wikidata.js:30-59 | One chunk sends at most one request and has one output entry per chunk key. Without a request the cache is unchanged; with one, the request's answer is written over the cache. |
| Bulk.RunChunkSent | src/wikidata.js:32-33 | A chunk sends a request exactly when some of its keys are uncached; the request is non-empty and holds each uncached key of the chunk once and nothing else. |
| Bulk.RunChunks | src/wikidata.js:29-61 | The output has exactly one entry per distinct key. |
| Bulk.RunAllCached | src/wikidata.js:29-33 | A key list that is fully cached sends no request and leaves the cache unchanged. |
| Bulk.RunOneUncached | src/wikidata.js:29-33 | A run over a single uncached key sends exactly one request, holding that key. |
| Bulk.RunRequests | src/wikidata.js:29-33 | At most `ceil(distinct keys / size)` requests are sent, none empty. No key is requested twice, and only keys that were uncached at the start are requested. |
| Bulk.RunCacheKeys | src/wikidata.js:45-52 | Every cached key stays cached. Every key an answer wrote is cached. No other key is added. |
| Bulk.RunKeeps | src/wikidata.js:45-52 | A cache entry no answer wrote is unchanged. |
| Bulk.RunUntouched | src/wikidata.js:59 | A key no answer wrote reads its original cache entry, or the default. |
| Bulk.SoundFillOut | src/wikidata.js:59 | When answers only write requested keys, each key's output is its final cache entry, or the default. |
| Bulk.SoundFillRequested | src/wikidata.js:44-52 | When answers only write requested keys, each requested key ends up with exactly what its own request's answer wrote. |
| Bulk.CoveringFillRun | src/wikidata.js:88-98 | When every answer writes all the keys it was asked for, every key ends up cached and repeating the call sends no request. |
| Bulk.ClosedKey | src/wikidata.js:88-102 | When every answer writes exactly the keys it was asked for, each key is cached, its output is its cache entry, and an entry cached beforehand is unchanged. |
| Bulk.SoundHit | src/wikidata.js:32 | When answers only write requested keys, a key cached beforehand keeps its entry. |
| Bulk.SoundMissRequested | src/wikidata.js:45-52 | When answers only write requested keys, a newly cached key was requested. |
| Wikidata.ItemOf | src/wikidata.js:47 | `wikibase_item \|\| null`: an id exactly when the page has a non-empty `wikibase_item`, and then that id. |
| Wikidata.EchoUpdatesSpec | src/wikidata.js:44-49 | The answer writes one entry per echoed page title. The last page echoing a title decides its entry, which is that page's item id. No entry is an empty id. |
| Wikidata.GetWikibaseItemsBulk | src/wikidata.js:25-62 | One output entry per distinct title; no request when every title is cached. |
| Wikidata.WbRequests | src/wikidata.js:28-41 | At most `ceil(distinct titles / CHUNK)` requests, none empty. No title is requested twice, and only uncached titles are requested. |
| Wikidata.WbFailureCached | src/wikidata.js:50-52 | Every title of a failed request is cached afterwards, so no later call requests it again. |
| Wikidata.WbUnechoed | src/wikidata.js:45-59 | An uncached title that no answer echoes stays uncached and reads `null`. |
| Wikidata.WbRequestedAgain | src/wikidata.js:29-33 | An uncached title that no answer of the call wrote is requested again by a later call for that title. |
| Wikidata.WbEchoedOut | src/wikidata.js:59 | When answers echo only requested titles, each title's output is its final cache entry, or `null`. |
| Wikidata.WbEchoedRequested | src/wikidata.js:43-52 | When answers echo only requested titles, each requested title's entry is what its own request's answer (or failure) wrote. |
| Wikidata.SomeQ5Exists | src/wikidata.js:90-93 | The left-to-right scan finds `Q5` exactly when some `P31` claim has that value. |
| Wikidata.NonEmpty | src/wikidata.js:70 | `qids.filter(Boolean)` keeps exactly the non-empty ids. |
| Wikidata.IsPersonBulk | src/wikidata.js:68-105 | One output entry per distinct non-empty id; no request when every such id is cached. |
| Wikidata.PersonFillClosed | src/wikidata.js:88-98 | Every request, answered or failed, writes a verdict for exactly the ids it asked for. |
| Wikidata.PersonRequests | src/wikidata.js:70-84 | At most `ceil(distinct non-empty ids / CHUNK)` requests, none empty. No id is requested twice, and only uncached non-empty ids are requested. |
| Wikidata.PersonCached | src/wikidata.js:102 | Every output is the id's final cache entry. An id cached beforehand keeps its cached verdict. |
| Wikidata.PersonRequested | src/wikidata.js:85-98 | A requested id is cached with its entity's verdict: human when the answer holds the entity with a `Q5` claim. A failed request gives `false`. |
| Wikidata.PersonNoRefetch | src/wikidata.js:73-76 | Repeating a call with the cache it left sends no request. |
| Wikidata.PersonKey | src/wikidata.js:68-105 | An id's output is its cached verdict when cached beforehand. Otherwise it is true exactly when some request for it found a human. |
| Wikidata.QidsOf | src/wikidata.js:113 | The ids passed on to `isPersonBulk` are exactly the non-null item ids of the titles. |
| Wikidata.TitlesArePerson | src/wikidata.js:111-121 | One output entry per distinct title. The item-id lookup is `getWikibaseItemsBulk` over the titles. |
| Wikidata.Answer | src/wikidata.js:115-119 | The output covers exactly the given titles. |
| Wikidata.TitleIsPerson | src/wikidata.js:111-121 | A title is a person exactly when it has a non-empty item id whose verdict is true: the cached verdict, or else the verdict from a request for that id. |
| Wikidata.TitlesRequests | src/wikidata.js:111-114 | The two stages together send at most `2 * ceil(distinct titles / CHUNK)` requests. |
| Graphs.WalkReaches | src/bfs.js:4-8 | The end of a walk with `n` links is within `n` links of its start. |
| Graphs.ReachedByWalk | src/bfs.js:4-8 | Every title within `k` links of the start ends a walk from it with at most `k` links. |
| Graphs.NoShortWalk | src/bfs.js:4-8 | A title not within `k` links has no walk to it with `k` links or fewer. |
| Graphs.ReachNext | src/bfs.js:19-45 | Layer `k + 1` is layer `k` plus the links of the titles exactly `k` links away. |
| Graphs.ReachSettles | src/bfs.js:19 | Once a layer adds nothing, no later layer adds anything. |
| Graphs.Unreachable | src/bfs.js:19 | If a layer adds nothing and the target is not yet reached, no walk leads to it. |
| Graphs.ExploredSplit | src/bfs.js:19-45 | The titles explored before layer `k` and layer `k` itself are disjoint and together make up the titles within `k` links, so their counts add up. |
| Graphs.FetchesDistinct | src/bfs.js:23-30 | Over titles without repeats, the successful fetches counted one by one are exactly the number of those titles whose fetch succeeds. |
| Bfs.ExtendTrails | src/bfs.js:35-40 | Extending a queued path by unvisited links gives duplicate-free walks from the start, one title longer, ending in those links. |
| Bfs.NextFrontier | src/bfs.js:39-44 | The titles first reached while expanding layer `k` are exactly the titles `k + 1` links away. |
| Bfs.LinkStep | src/bfs.js:33-41 | One link of the inner loop keeps the loop's account: the visited set is the old one plus the links so far, the queued links are the unvisited ones among them, and the queued links followed by `Unvisited` of the rest are `Unvisited` of all the links. |
| Bfs.ExpandLinks | src/bfs.js:33-41 | The target among the links ends the search with the path extended by it. Otherwise every link becomes visited, and the links queued are `Unvisited(links, visited)`: the links not visited before, each at its first occurrence, in link order. |
| Bfs.QueueLinks | src/bfs.js:33-41 | The next layer's queue grows by the path extended by exactly `Unvisited(links, seen)`, in that order, and stays a duplicate-free set of trails ending in the titles newly visited in this layer. |
| Bfs.DequeuePath | src/bfs.js:21-41 | Dequeuing one path adds one API call exactly when its last title's fetch succeeds (`Fetches` of the dequeued titles grows accordingly); a failed fetch skips the path. Otherwise the visited set grows by that title's links. |
| Bfs.ExpandLayer | src/bfs.js:20-44 | A layer counts every dequeued path as explored. Its API calls grow by `Fetches` of the dequeued paths' last titles, that is, by one for each successful fetch. When a path is found, at least one path was dequeued, and the path is a duplicate-free walk to the target. Otherwise the visited set grows by exactly the links of the layer's last titles, and the next queue ends in exactly the newly visited titles. |
| Bfs.LayerAdvances | src/bfs.js:19-45 | After a whole layer `k` without the target, the visited titles are those within `k + 1` links and the queue ends in layer `k + 1`. `nodesExplored` is the number of titles within `k` links, and `apiCalls` the number of those whose fetch succeeds. |
| Bfs.CountsFound | src/bfs.js:23-37 | When the target turns up in layer `k`, `nodesExplored` is more than the titles of the earlier layers but at most those within `k` links. `apiCalls` is at least the successful fetches of the earlier layers, and exceeds them by no more than `nodesExplored` exceeds the earlier titles. |
| Bfs.FindPath | src/bfs.js:9-47 | An empty start or target gives `null`; equal titles give `[start]`. A found path is a duplicate-free walk from start to target, no longer than any other such walk, found at layer `depth <= maxDepth` with `depth + 1` links. `null` means no walk has at most `maxDepth + 1` links. When the layers run out first, there is no walk at all, and the number of explored titles equals the number of titles reachable from the start. API calls never exceed explored titles and equal them when no fetch fails. With `null`, `nodesExplored` is exactly the number of titles within `depth - 1` links (none at depth 0) and `apiCalls` the number of those whose fetch succeeds. With a path, both exceed those counts for the earlier layers by at most the titles dequeued from the last layer. |

## Left out

- The HTTP server (src/server.js), `resolveRedirect` and logging: they are outside the modelled core. `titlesArePerson` is exported, but no search calls it.
- Cache TTLs and NodeCache's expiry: every cache is a map whose entries persist.
- The cache-key prefixes `links:`, `wb:` and `person:`: each cache is keyed by the bare title or id, which is equivalent because the prefix is fixed.
- The concurrency limiter (`p-limit`) and asynchrony: requests run one after another, as in the code, which awaits each in turn.
- Environment configuration: `CHUNK_SIZE` is the parameter `size` (at least 1); the API URLs, timeouts and `CONCURRENCY` do not affect results.
- Non-string or missing inputs (`null`, `undefined`, numbers): every title and id is a string, and `!x` is modelled as `x == ""`.
- Unicode: titles are sequences of ASCII-meaning characters; JavaScript's `\s` and `\w` are taken on ASCII, and `toUpperCase` only maps `a`-`z`.
- Links.Paginate: the unbounded `while (true)` loop is bounded by `fuel` requests; a chain longer than `fuel` ends as unfinished and caches nothing.
- Links.GetLinks: the thrown error is a `Failure` value; its message is not modelled.
- Wikidata.QidsOf: `Object.values(titleToQid)` lists ids in JavaScript's property order (integer-like keys first); the model lists them in title order, which changes only the chunking of the second stage.
- Wikidata.TitlesRequests: states `2 * ceil(distinct titles / CHUNK)` rather than a separate count of distinct item ids.
- Bfs.FindPath: `maxDepth` is an integer; its default of 4 is left to the caller, and fractional or `NaN` bounds are not modelled.
- Bfs.FindPath: when a path is found, the counters are bounded rather than pinned. They are exact in `Bfs.ExpandLayer`, but which titles of the last layer were dequeued before the target turned up depends on the order of the links.
- Bfs.FindPath: `getLinks` is the oracle `g` rather than a call into `Links.GetLinks`. Within one search every title is fetched at most once, so the link cache only matters across searches.

=== FILE: bfs.dfy ===
/**
 * `findPathBFS`: a level-by-level breadth-first search over the link graph
 * for a shortest chain of links from one title to another.
 *
 * Every queue entry is a whole path from the start title. The search keeps
 * a set of visited titles (the start title from the outset), takes the
 * queue one layer at a time, fetches the links of each path's last title,
 * and for each link not yet visited either returns the extended path, when
 * the link is the target, or marks the link visited and queues the extended
 * path for the next layer. A failed fetch skips the title; the graph model
 * treats it as a title without links.
 */
module Bfs {
  import opened Wrappers
  import opened Seqs
  import opened Graphs

  /** The counters the search reports beside its answer. */
  datatype Stats = Stats(nodesExplored: nat, apiCalls: nat, depth: nat)

  /** The outcome of a search. */
  datatype Search =
    | NoInput
      // the start or the target title is empty: the search answers `null`
    | SameTitle
      // start and target coincide: the search answers the one-title path `[start]`
    | Searched(path: Option<seq<Node>>, stats: Stats)
      // the search ran: a path, or `null` when none was found within the depth bound

  /** The last title of a path; queued paths are never empty, and the empty path has `""`. */
  function Last(p: seq<Node>): Node {
    if p == [] then "" else p[|p| - 1]
  }

  /** The last titles of the queued paths, in queue order. */
  function LastSeq(queue: seq<seq<Node>>): (r: seq<Node>)
    ensures |r| == |queue|
  {
    seq(|queue|, k requires 0 <= k < |queue| => Last(queue[k]))
  }

  /** `path` extended by each of `titles` in turn: the paths pushed onto the next layer. */
  function Extend(path: seq<Node>, titles: seq<Node>): (r: seq<seq<Node>>)
    ensures |r| == |titles|
  {
    seq(|titles|, k requires 0 <= k < |titles| => path + [titles[k]])
  }

  /** `p` is a walk from `start` through `len` distinct titles, all of them visited. */
  predicate Trail(g: Graph, start: Node, p: seq<Node>, len: nat, visited: set<Node>) {
    |p| == len && len > 0 && WalkFromTo(g, p, start, p[len - 1]) && NoDup(p) && Elems(p) <= visited
  }

  /** Every queued path is a `Trail` of `len` titles. */
  predicate Trails(g: Graph, start: Node, queue: seq<seq<Node>>, len: nat, visited: set<Node>) {
    forall p | p in queue :: Trail(g, start, p, len, visited)
  }

  /** A trail stays a trail when more titles are visited. */
  lemma TrailsGrow(g: Graph, start: Node, queue: seq<seq<Node>>, len: nat, visited: set<Node>, more: set<Node>)
    requires Trails(g, start, queue, len, visited) && visited <= more
    ensures Trails(g, start, queue, len, more)
  {
  }

  /** A queued path stays a trail when more titles are visited. */
  lemma TrailAt(g: Graph, start: Node, queue: seq<seq<Node>>, len: nat, visited: set<Node>, more: set<Node>, i: nat)
    requires Trails(g, start, queue, len, visited) && visited <= more && i < |queue|
    ensures Trail(g, start, queue[i], len, more)
  {
    assert queue[i] in queue;
  }

  /** The last titles of a joined queue are those of its parts. */
  lemma LastSeqAppend(a: seq<seq<Node>>, b: seq<seq<Node>>)
    ensures LastSeq(a + b) == LastSeq(a) + LastSeq(b)
  {
    assert forall k | 0 <= k < |a + b| :: LastSeq(a + b)[k] == (LastSeq(a) + LastSeq(b))[k];
  }

  /** Dequeuing one more path adds its last title to those dequeued so far. */
  lemma LastsPrefix(queue: seq<seq<Node>>, i: nat)
    requires i < |queue|
    ensures Elems(LastSeq(queue[..i + 1])) == Elems(LastSeq(queue[..i])) + {Last(queue[i])}
  {
    assert queue[..i + 1] == queue[..i] + [queue[i]];
    LastSeqAppend(queue[..i], [queue[i]]);
    assert LastSeq([queue[i]]) == [Last(queue[i])];
    ElemsSnoc(LastSeq(queue[..i]), Last(queue[i]));
  }

  /** Dequeuing one more path adds one API call when its last title's fetch succeeds. */
  lemma FetchesPrefix(g: Graph, queue: seq<seq<Node>>, i: nat)
    requires i < |queue|
    ensures Fetches(g, LastSeq(queue[..i + 1]))
         == Fetches(g, LastSeq(queue[..i])) + (if g(Last(queue[i])).Some? then 1 else 0)
  {
    assert queue[..i + 1] == queue[..i] + [queue[i]];
    LastSeqAppend(queue[..i], [queue[i]]);
    assert LastSeq([queue[i]]) == [Last(queue[i])];
    FetchesSnoc(g, LastSeq(queue[..i]), Last(queue[i]));
  }

  /**
   * Dequeuing one more path adds its last title's links to those stepped
   * to, and one API call when that title's fetch succeeds.
   */
  lemma Dequeue(g: Graph, queue: seq<seq<Node>>, i: nat)
    requires i < |queue|
    ensures Step(g, Elems(LastSeq(queue[..i + 1])))
         == Step(g, Elems(LastSeq(queue[..i]))) + Elems(Neighbours(g, Last(queue[i])))
    ensures Fetches(g, LastSeq(queue[..i + 1]))
         == Fetches(g, LastSeq(queue[..i])) + (if g(Last(queue[i])).Some? then 1 else 0)
  {
    LastsPrefix(queue, i);
    FetchesPrefix(g, queue, i);
    StepAdd(g, Elems(LastSeq(queue[..i])), Last(queue[i]));
  }

  /**
   * Extending a trail by new links of its last title, each not yet visited,
   * gives trails one title longer that end in those links.
   */
  lemma ExtendTrails(g: Graph, start: Node, path: seq<Node>, newTitles: seq<Node>, visited: set<Node>)
    requires Trail(g, start, path, |path|, visited)
    requires Elems(newTitles) <= Elems(Neighbours(g, Last(path))) && Elems(newTitles) !! visited
    ensures Trails(g, start, Extend(path, newTitles), |path| + 1, visited + Elems(newTitles))
    ensures LastSeq(Extend(path, newTitles)) == newTitles
  {
    var ext := Extend(path, newTitles);
    forall p | p in ext
      ensures Trail(g, start, p, |path| + 1, visited + Elems(newTitles))
    {
      var k :| 0 <= k < |ext| && ext[k] == p;
      assert newTitles[k] in Elems(newTitles);
      WalkExtend(g, path, start, Last(path), newTitles[k]);
      NoDupAppend(path, [newTitles[k]]);
      ElemsSnoc(path, newTitles[k]);
    }
    assert forall k | 0 <= k < |ext| :: LastSeq(ext)[k] == newTitles[k];
  }

  /** Stepping from one more title adds that title's links. */
  lemma StepAdd(g: Graph, s: set<Node>, n: Node)
    ensures Step(g, s + {n}) == Step(g, s) + Elems(Neighbours(g, n))
  {
    StepUnion(g, s, {n});
  }

  /**
   * The titles first reached while expanding layer `k` (those one link away
   * from it and not within `k` links) are exactly layer `k + 1`.
   */
  lemma NextFrontier(g: Graph, a: Node, k: nat, added: set<Node>)
    requires Reach(g, a, k) + added == Reach(g, a, k) + Step(g, Frontier(g, a, k))
    requires added !! Reach(g, a, k)
    ensures Reach(g, a, k + 1) == Reach(g, a, k) + added
    ensures added == Frontier(g, a, k + 1)
  {
    ReachNext(g, a, k);
  }

  /**
   * The links of `links` that are not in `seen`, each at its first
   * occurrence, in order: the titles the inner loop marks visited and queues.
   */
  function Unvisited(links: seq<Node>, seen: set<Node>): seq<Node>
    decreases |links|
  {
    if links == [] then []
    else if links[0] in seen then Unvisited(links[1..], seen)
    else [links[0]] + Unvisited(links[1..], seen + {links[0]})
  }

  /**
   * One link of the inner loop: after link `j`, `newTitles` and `seen`
   * still cover `links[..j + 1]`, and `Unvisited` of the rest completes them.
   */
  lemma LinkStep(links: seq<Node>, j: nat, visited: set<Node>, seen: set<Node>, newTitles: seq<Node>)
    requires j < |links|
    requires seen == visited + Elems(links[..j]) && seen == visited + Elems(newTitles)
    requires NoDup(newTitles) && Elems(newTitles) !! visited && Elems(newTitles) <= Elems(links[..j])
    requires newTitles + Unvisited(links[j..], seen) == Unvisited(links, visited)
    ensures links[..j + 1] == links[..j] + [links[j]]
    ensures var nb := links[j];
      var titles := if nb in seen then newTitles else newTitles + [nb];
      && seen + {nb} == visited + Elems(links[..j + 1]) && seen + {nb} == visited + Elems(titles)
      && NoDup(titles) && Elems(titles) !! visited && Elems(titles) <= Elems(links[..j + 1])
      && titles + Unvisited(links[j + 1..], seen + {nb}) == Unvisited(links, visited)
  {
    var nb := links[j];
    assert links[..j + 1] == links[..j] + [nb];
    assert links[j..][0] == nb && links[j..][1..] == links[j + 1..];
    ElemsSnoc(links[..j], nb);
    if nb !in seen {
      NoDupAppend(newTitles, [nb]);
      ConcatAssoc(newTitles, [nb], Unvisited(links[j + 1..], seen + {nb}));
    } else {
      assert seen + {nb} == seen;
    }
  }

  /**
   * The inner loop over the links of one dequeued path's last title, in
   * order: a visited link is skipped; the target ends the search with the
   * extended path; any other link is marked visited and the extended path is
   * queued for the next layer. `newTitles` lists the links so marked, in order.
   */
  method ExpandLinks(g: Graph, start: Node, target: Node, path: seq<Node>, links: seq<Node>,
                     visited: set<Node>)
    returns (found: Option<seq<Node>>, newTitles: seq<Node>, visited': set<Node>)
    requires Trail(g, start, path, |path|, visited)
    requires links == Neighbours(g, Last(path))
    requires target !in visited
    ensures found.Some? ==> target in links && found.value == path + [target]
    ensures found.Some? ==> WalkFromTo(g, found.value, start, target) && NoDup(found.value)
    ensures found.None? ==> target !in links && visited' == visited + Elems(links)
    ensures found.None? ==> visited' == visited + Elems(newTitles)
    ensures found.None? ==> newTitles == Unvisited(links, visited)
    ensures NoDup(newTitles) && Elems(newTitles) !! visited && Elems(newTitles) <= Elems(links)
  {
    newTitles, visited' := [], visited;
    var j := 0;
    while j < |links|
      invariant 0 <= j <= |links|
      invariant target !in links[..j]
      invariant visited' == visited + Elems(links[..j])
      invariant visited' == visited + Elems(newTitles)
      invariant NoDup(newTitles) && Elems(newTitles) !! visited && Elems(newTitles) <= Elems(links[..j])
      invariant newTitles + Unvisited(links[j..], visited') == Unvisited(links, visited)
    {
      var nb := links[j];
      LinkStep(links, j, visited, visited', newTitles);
      if nb !in visited' {
        if nb == target {
          WalkExtend(g, path, start, Last(path), nb);
          NoDupAppend(path, [nb]);
          return Some(path + [nb]), newTitles, visited';
        }
        visited' := visited' + {nb};
        newTitles := newTitles + [nb];
      }
      j := j + 1;
    }
    assert links[..j] == links;
    assert links[j..] == [];
    found := None;
  }

  /**
   * The links of one dequeued path, run through `ExpandLinks`, with the
   * extended paths appended to the next layer's queue `next`; `seen` is the
   * visited set so far, `visited` the part of it from before the layer.
   */
  method QueueLinks(g: Graph, start: Node, target: Node, path: seq<Node>, len: nat, links: seq<Node>,
                    visited: set<Node>, seen: set<Node>, next: seq<seq<Node>>)
    returns (found: Option<seq<Node>>, seen': set<Node>, next': seq<seq<Node>>)
    requires Trail(g, start, path, len, seen)
    requires links == Neighbours(g, Last(path))
    requires target !in seen
    requires seen == visited + Elems(LastSeq(next))
    requires NoDup(LastSeq(next)) && Elems(LastSeq(next)) !! visited
    requires Trails(g, start, next, len + 1, seen)
    ensures found.Some? ==> WalkFromTo(g, found.value, start, target) && NoDup(found.value)
    ensures found.Some? ==> |found.value| == len + 1
    ensures found.None? ==> next' == next + Extend(path, Unvisited(links, seen))
    ensures found.None? ==> seen' == seen + Elems(links) && target !in seen'
    ensures found.None? ==> seen' == visited + Elems(LastSeq(next'))
    ensures found.None? ==> NoDup(LastSeq(next')) && Elems(LastSeq(next')) !! visited
    ensures found.None? ==> Trails(g, start, next', len + 1, seen')
  {
    var newTitles;
    found, newTitles, seen' := ExpandLinks(g, start, target, path, links, seen);
    if found.Some? {
      return found, seen', next;
    }
    var added := Extend(path, newTitles);
    ExtendTrails(g, start, path, newTitles, seen);
    TrailsGrow(g, start, next, len + 1, seen, seen');
    LastSeqAppend(next, added);
    NoDupAppend(LastSeq(next), newTitles);
    next' := next + added;
  }

  /**
   * Path `i` of the layer `queue` dequeued: its last title's links are
   * fetched (a successful fetch is one more API call, a failed one skips
   * the path) and run through `QueueLinks`. `seen`, `next` and `calls` are
   * the visited set, the next layer's queue and the API calls after the
   * paths before it; `api` is the API calls before the layer.
   */
  method DequeuePath(g: Graph, start: Node, target: Node, queue: seq<seq<Node>>, i: nat, len: nat,
                     visited: set<Node>, seen: set<Node>, next: seq<seq<Node>>, api: nat, calls: nat)
    returns (found: Option<seq<Node>>, seen': set<Node>, next': seq<seq<Node>>, calls': nat)
    requires i < |queue| && Trails(g, start, queue, len, visited)
    requires seen == visited + Step(g, Elems(LastSeq(queue[..i]))) && target !in seen
    requires seen == visited + Elems(LastSeq(next))
    requires NoDup(LastSeq(next)) && Elems(LastSeq(next)) !! visited
    requires Trails(g, start, next, len + 1, seen)
    requires calls == api + Fetches(g, LastSeq(queue[..i]))
    ensures calls' == api + Fetches(g, LastSeq(queue[..i + 1]))
    ensures calls <= calls' <= calls + 1 && (Total(g) ==> calls' == calls + 1)
    ensures found.Some? ==> WalkFromTo(g, found.value, start, target) && NoDup(found.value)
    ensures found.Some? ==> |found.value| == len + 1
    ensures found.None? ==> seen' == visited + Step(g, Elems(LastSeq(queue[..i + 1]))) && target !in seen'
    ensures found.None? ==> seen' == visited + Elems(LastSeq(next'))
    ensures found.None? ==> NoDup(LastSeq(next')) && Elems(LastSeq(next')) !! visited
    ensures found.None? ==> Trails(g, start, next', len + 1, seen')
  {
    var path := queue[i];
    var last := Last(path);
    Dequeue(g, queue, i);
    found, seen', next', calls' := None, seen, next, calls;
    var links := g(last);
    if links.Some? {
      calls' := calls + 1;
      TrailAt(g, start, queue, len, visited, seen, i);
      found, seen', next' := QueueLinks(g, start, target, path, len, links.value, visited, seen, next);
    } else {
      assert Neighbours(g, last) == [];
    }
  }

  /**
   * One layer of the search: each queued path in turn is counted as
   * explored, its last title's links are fetched (a successful fetch counts
   * as an API call; a failed one skips the path) and expanded.
   */
  method ExpandLayer(g: Graph, start: Node, target: Node, queue: seq<seq<Node>>, len: nat,
                     visited: set<Node>, explored: nat, api: nat)
    returns (found: Option<seq<Node>>, visited': set<Node>, next: seq<seq<Node>>, explored': nat, api': nat)
    requires Trails(g, start, queue, len, visited)
    requires target !in visited
    requires api <= explored && (Total(g) ==> api == explored)
    ensures explored <= explored' <= explored + |queue|
    ensures api' == api + Fetches(g, LastSeq(queue[..explored' - explored]))
    ensures api' <= explored'
    ensures Total(g) ==> api' == explored'
    ensures found.Some? ==> explored < explored'
    ensures found.Some? ==> WalkFromTo(g, found.value, start, target) && NoDup(found.value)
    ensures found.Some? ==> |found.value| == len + 1
    ensures found.None? ==> explored' == explored + |queue| && api' == api + Fetches(g, LastSeq(queue))
    ensures found.None? ==> visited' == visited + Step(g, Elems(LastSeq(queue))) && target !in visited'
    ensures found.None? ==> visited' == visited + Elems(LastSeq(next))
    ensures found.None? ==> NoDup(LastSeq(next)) && Elems(LastSeq(next)) !! visited
    ensures found.None? ==> Trails(g, start, next, len + 1, visited')
  {
    visited', next, explored', api' := visited, [], explored, api;
    var i := 0;
    while i < |queue|
      invariant 0 <= i <= |queue|
      invariant visited' == visited + Step(g, Elems(LastSeq(queue[..i]))) && target !in visited'
      invariant visited' == visited + Elems(LastSeq(next))
      invariant NoDup(LastSeq(next)) && Elems(LastSeq(next)) !! visited
      invariant Trails(g, start, next, len + 1, visited')
      invariant explored' == explored + i
      invariant api' <= explored' && (Total(g) ==> api' == explored')
      invariant api' == api + Fetches(g, LastSeq(queue[..i]))
    {
      explored' := explored' + 1;
      var f;
      f, visited', next, api' := DequeuePath(g, start, target, queue, i, len, visited, visited', next, api, api');
      if f.Some? {
        return f, visited', next, explored', api';
      }
      i := i + 1;
    }
    assert queue[..i] == queue;
    found := None;
  }

  /**
   * After layer `k` was expanded without finding the target: the visited
   * titles are those within `k + 1` links, the queued paths end in exactly
   * layer `k + 1`, every title of layer `k` was dequeued, and each whose
   * fetch succeeded cost one API call.
   */
  lemma LayerAdvances(g: Graph, a: Node, k: nat, visited: set<Node>, lasts: seq<Node>, explored: nat, api: nat,
                      visited': set<Node>, next: seq<Node>, explored': nat, api': nat)
    requires visited == Reach(g, a, k)
    requires NoDup(lasts) && Elems(lasts) == Frontier(g, a, k)
    requires explored == |Explored(g, a, k)| && api == |Fetched(g, Explored(g, a, k))|
    requires visited' == visited + Step(g, Elems(lasts))
    requires visited' == visited + Elems(next) && NoDup(next) && Elems(next) !! visited
    requires explored' == explored + |lasts| && api' == api + Fetches(g, lasts)
    ensures visited' == Reach(g, a, k + 1) && Elems(next) == Frontier(g, a, k + 1)
    ensures explored' == |Explored(g, a, k + 1)| && api' == |Fetched(g, Explored(g, a, k + 1))|
    ensures explored' + |next| == |visited'|
  {
    ExploredSplit(g, a, k);
    NoDupSize(lasts);
    FetchesDistinct(g, lasts);
    FetchedUnion(g, Explored(g, a, k), Frontier(g, a, k));
    NextFrontier(g, a, k, Elems(next));
    DisjointAddSize(visited, next);
  }

  /**
   * The counters when the target turns up while layer `k` is expanded:
   * past the earlier layers, some titles of layer `k` were dequeued, and
   * each of them cost at most one API call.
   */
  lemma CountsFound(g: Graph, a: Node, k: nat, queue: seq<seq<Node>>, explored: nat, api: nat, explored': nat, api': nat)
    requires NoDup(LastSeq(queue)) && Elems(LastSeq(queue)) == Frontier(g, a, k)
    requires explored == |Explored(g, a, k)| && api == |Fetched(g, Explored(g, a, k))|
    requires explored < explored' <= explored + |queue|
    requires api' == api + Fetches(g, LastSeq(queue[..explored' - explored]))
    ensures explored' <= |Reach(g, a, k)|
    ensures |Explored(g, a, k)| < explored'
    ensures |Fetched(g, Explored(g, a, k))| <= api'
    ensures api' - |Fetched(g, Explored(g, a, k))| <= explored' - |Explored(g, a, k)|
  {
    NoDupSize(LastSeq(queue));
    ExploredSplit(g, a, k);
  }

  /**
   * `findPathBFS(start, target, maxDepth)` over the link graph `g`: `null`
   * for an empty title, `[start]` for equal titles, and otherwise the
   * layer-by-layer search with its counters.
   */
  method FindPath(g: Graph, start: Node, target: Node, maxDepth: int) returns (r: Search)
    ensures r.NoInput? <==> start == "" || target == ""
    ensures r.SameTitle? <==> start != "" && target != "" && start == target
    ensures r.Searched? ==> r.stats.apiCalls <= r.stats.nodesExplored
    ensures r.Searched? && Total(g) ==> r.stats.apiCalls == r.stats.nodesExplored
    ensures r.Searched? ==> r.stats.nodesExplored <= |Reach(g, start, r.stats.depth)|
    ensures r.Searched? && r.path.None? ==>
      && r.stats.nodesExplored == |Explored(g, start, r.stats.depth)|
      && r.stats.apiCalls == |Fetched(g, Explored(g, start, r.stats.depth))|
    ensures r.Searched? && r.path.Some? ==>
      var done := Explored(g, start, r.stats.depth);
      && |done| < r.stats.nodesExplored
      && |Fetched(g, done)| <= r.stats.apiCalls
      && r.stats.apiCalls - |Fetched(g, done)| <= r.stats.nodesExplored - |done|
    ensures r.Searched? && r.path.Some? ==>
      var p := r.path.value;
      WalkFromTo(g, p, start, target) && NoDup(p) && |p| == r.stats.depth + 2 && r.stats.depth <= maxDepth
    ensures r.Searched? && r.path.Some? ==>
      forall w | WalkFromTo(g, w, start, target) :: |r.path.value| <= |w|
    ensures r.Searched? && r.path.None? ==>
      forall w | WalkFromTo(g, w, start, target) :: |w| > maxDepth + 2
    ensures r.Searched? && r.path.None? ==>
      r.stats.depth == (if maxDepth < 0 then 0 else maxDepth + 1)
      || (r.stats.depth <= maxDepth && r.stats.nodesExplored == |Reach(g, start, r.stats.depth)|
          && forall w :: !WalkFromTo(g, w, start, target))
  {
    if start == "" || target == "" {
      return NoInput;
    }
    if start == target {
      return SameTitle;
    }
    var visited := {start};
    var queue := [[start]];
    var depth: nat := 0;
    var explored: nat, api: nat := 0, 0;
    assert LastSeq(queue) == [start];
    assert Fetched(g, Explored(g, start, 0)) == {};
    while |queue| > 0 && depth <= maxDepth
      invariant visited == Reach(g, start, depth)
      invariant Elems(LastSeq(queue)) == Frontier(g, start, depth) && NoDup(LastSeq(queue))
      invariant Trails(g, start, queue, depth + 1, visited)
      invariant target !in visited
      invariant explored == |Explored(g, start, depth)| && api == |Fetched(g, Explored(g, start, depth))|
      invariant explored + |queue| == |visited|
      invariant api <= explored && (Total(g) ==> api == explored)
      invariant depth <= if maxDepth < 0 then 0 else maxDepth + 1
      decreases maxDepth - depth
    {
      var found, visited', next, explored', api' := ExpandLayer(g, start, target, queue, depth + 1, visited, explored, api);
      if found.Some? {
        NoShortWalk(g, start, target, depth);
        CountsFound(g, start, depth, queue, explored, api, explored', api');
        return Searched(found, Stats(explored', api', depth));
      }
      LayerAdvances(g, start, depth, visited, LastSeq(queue), explored, api, visited', LastSeq(next), explored', api');
      visited, queue, explored, api := visited', next, explored', api';
      depth := depth + 1;
    }
    NoShortWalk(g, start, target, depth);
    if |queue| == 0 {
      EmptyFrontier(g, start, depth);
      Unreachable(g, start, target, depth);
    }
    r := Searched(None, Stats(explored, api, depth));
  }
}

=== FILE: bulk.dfy ===
/**
 * The chunked, cache-first bulk lookup shared by `getWikibaseItemsBulk` and
 * `isPersonBulk` (src/wikidata.js): the distinct keys are taken `size` at a
 * time; for each chunk one request covers exactly the keys the cache lacks,
 * its answer is written to the cache, and the chunk's output is read back
 * from the cache.
 */
module Bulk {
  import opened Wrappers
  import opened Seqs

  /**
   * The result of a bulk lookup: the cache it leaves, the output map, and
   * the key lists of the requests it sent, in order.
   */
  datatype Run<K, V> = Run(cache: map<K, V>, out: map<K, V>, sent: seq<seq<K>>)

  /**
   * A request's cache writes: `fill(ks)` is what the code stores after
   * requesting the keys `ks` (an answer decoded from the response, or the
   * terminal value it stores for every key when the request fails).
   */
  type Fill<!K, V> = seq<K> -> map<K, V>

  /** `chunk.filter(k => cache.get(k) === undefined)`: the keys the cache lacks, in order. */
  function Missing<K, V>(cache: map<K, V>, chunk: seq<K>): seq<K>
    decreases |chunk|
  {
    if chunk == [] then []
    else
      var rest := Missing(cache, chunk[1..]);
      if chunk[0] in cache then rest else [chunk[0]] + rest
  }

  /**
   * The keys `Missing` keeps are exactly the chunk's uncached ones, none of
   * them twice when the chunk has no repeats; none are kept exactly when
   * the whole chunk is cached.
   */
  lemma {:induction false} MissingKeys<K, V>(cache: map<K, V>, chunk: seq<K>)
    ensures var r := Missing(cache, chunk);
      && Elems(r) == Elems(chunk) - cache.Keys
      && (NoDup(chunk) ==> NoDup(r))
      && |r| <= |chunk|
      && (r == [] <==> Elems(chunk) <= cache.Keys)
    decreases |chunk|
  {
    if chunk != [] {
      var rest := Missing(cache, chunk[1..]);
      MissingKeys(cache, chunk[1..]);
      assert Elems(chunk) == {chunk[0]} + Elems(chunk[1..]);
      if chunk[0] !in cache {
        assert Elems([chunk[0]] + rest) == {chunk[0]} + Elems(rest);
        assert NoDup(chunk) ==> chunk[0] !in Elems(chunk[1..]) && NoDup(chunk[1..]);
      }
    }
  }

  /** All requested keys, request after request. */
  function Concat<K>(sent: seq<seq<K>>): seq<K> {
    if sent == [] then [] else sent[0] + Concat(sent[1..])
  }

  /** Every key some request's answer wrote to the cache. */
  function Touched<K, V>(fill: Fill<K, V>, sent: seq<seq<K>>): set<K> {
    if sent == [] then {} else fill(sent[0]).Keys + Touched(fill, sent[1..])
  }

  /**
   * One chunk: at most one request, covering exactly the keys of the chunk
   * the cache lacks and none if it lacks none; the answer is written over
   * the cache, and every key of the chunk reads its cache entry, or `dflt`
   * when it has none.
   */
  function RunChunk<K, V>(cache: map<K, V>, chunk: seq<K>, fill: Fill<K, V>, dflt: V): (r: Run<K, V>)
    requires NoDup(chunk)
    ensures r.out.Keys == Elems(chunk)
    ensures |r.sent| <= 1
    ensures r.sent == [] ==> r.cache == cache
    ensures r.sent != [] ==> r.cache == cache + fill(r.sent[0])
  {
    var toFetch := Missing(cache, chunk);
    var cache' := if toFetch == [] then cache else cache + fill(toFetch);
    var out := map k | k in Elems(chunk) :: Get(cache', k).GetOr(dflt);
    Run(cache', out, if toFetch == [] then [] else [toFetch])
  }

  /**
   * A chunk sends a request exactly when the cache lacks one of its keys,
   * and the request holds each missing key once and nothing else.
   */
  lemma RunChunkSent<K, V>(cache: map<K, V>, chunk: seq<K>, fill: Fill<K, V>, dflt: V)
    requires NoDup(chunk)
    ensures var r := RunChunk(cache, chunk, fill, dflt);
      && (r.sent == [] <==> Elems(chunk) <= cache.Keys)
      && (r.sent != [] ==> r.sent[0] != [] && NoDup(r.sent[0]) && Elems(r.sent[0]) == Elems(chunk) - cache.Keys)
  {
    MissingKeys(cache, chunk);
  }

  /** Every key of a chunk reads the cache entry the chunk leaves, or `dflt` when there is none. */
  lemma RunChunkOut<K, V>(cache: map<K, V>, chunk: seq<K>, fill: Fill<K, V>, dflt: V)
    requires NoDup(chunk)
    ensures var r := RunChunk(cache, chunk, fill, dflt);
      forall k | k in r.out :: r.out[k] == Get(r.cache, k).GetOr(dflt)
  {
  }

  /** The two halves of a duplicate-free sequence share no element. */
  lemma SplitDisjoint<K>(keys: seq<K>, n: nat)
    requires NoDup(keys) && n <= |keys|
    ensures Elems(keys[..n]) !! Elems(keys[n..])
    ensures Elems(keys) == Elems(keys[..n]) + Elems(keys[n..])
    ensures NoDup(keys[..n]) && NoDup(keys[n..])
  {
    assert keys == keys[..n] + keys[n..];
    forall i, j | 0 <= i < n && 0 <= j < |keys| - n
      ensures keys[..n][i] != keys[n..][j]
    {
      assert keys[..n][i] == keys[i] && keys[n..][j] == keys[n + j];
    }
  }

  /** The first slice of at most `size` keys. */
  function ChunkLen(size: nat, keys: nat): (n: nat)
    requires size >= 1 && keys >= 1
    ensures 1 <= n <= keys && n <= size
    ensures n < size ==> n == keys
  {
    if size <= keys then size else keys
  }

  /**
   * `for (i = 0; i < keys.length; i += size)` over the distinct keys: one
   * `RunChunk` per slice of `size` keys, each starting from the cache the
   * previous one left, with the outputs merged.
   */
  function RunChunks<K, V>(cache: map<K, V>, keys: seq<K>, size: nat, fill: Fill<K, V>, dflt: V): (r: Run<K, V>)
    requires size >= 1
    requires NoDup(keys)
    ensures r.out.Keys == Elems(keys)
    decreases |keys|
  {
    if keys == [] then Run(cache, map[], [])
    else
      var n := ChunkLen(size, |keys|);
      SplitDisjoint(keys, n);
      var first := RunChunk(cache, keys[..n], fill, dflt);
      var rest := RunChunks(first.cache, keys[n..], size, fill, dflt);
      Run(rest.cache, first.out + rest.out, first.sent + rest.sent)
  }

  /** A run whose keys are all cached sends no request and leaves the cache as it was. */
  lemma {:induction false} RunAllCached<K, V>(cache: map<K, V>, keys: seq<K>, size: nat, fill: Fill<K, V>, dflt: V)
    requires size >= 1 && NoDup(keys)
    ensures var r := RunChunks(cache, keys, size, fill, dflt);
      Elems(keys) <= cache.Keys ==> r.sent == [] && r.cache == cache
    decreases |keys|
  {
    if keys != [] && Elems(keys) <= cache.Keys {
      var n := ChunkLen(size, |keys|);
      SplitDisjoint(keys, n);
      var first := RunChunk(cache, keys[..n], fill, dflt);
      RunChunkSent(cache, keys[..n], fill, dflt);
      assert first.sent == [] && first.cache == cache;
      RunAllCached(cache, keys[n..], size, fill, dflt);
      assert RunChunks(cache, keys, size, fill, dflt).sent == first.sent + [];
    }
  }

  /** A run over one uncached key sends exactly one request, for that key. */
  lemma RunOneUncached<K, V>(cache: map<K, V>, k: K, size: nat, fill: Fill<K, V>, dflt: V)
    requires size >= 1 && k !in cache
    ensures RunChunks(cache, [k], size, fill, dflt).sent == [[k]]
  {
    var keys := [k];
    assert NoDup(keys);
    var n := ChunkLen(size, 1);
    assert keys[..n] == [k] && keys[n..] == [];
    assert Missing(cache, [k]) == [k];
  }

  /** Every full slice but the last takes one chunk off the count. */
  lemma CeilDivChunk(total: nat, size: nat)
    requires size >= 1 && total >= 1
    ensures CeilDiv(total, size) == 1 + CeilDiv(total - ChunkLen(size, total), size)
  {
  }

  /**
   * At most one request for the first slice and at most one per slice of
   * the `rest` keys after it make at most one per slice of all `total`.
   */
  lemma ChunkCount(total: nat, rest: nat, size: nat, a: nat, b: nat)
    requires size >= 1 && total >= 1 && rest == total - ChunkLen(size, total)
    requires b <= CeilDiv(rest, size) && a <= b + 1
    ensures a <= CeilDiv(total, size)
  {
    CeilDivChunk(total, size);
  }

  /**
   * How a run splits into its first chunk and the rest; the rest starts
   * from the cache the first chunk left.
   */
  lemma RunChunksSplit<K, V>(cache: map<K, V>, keys: seq<K>, size: nat, fill: Fill<K, V>, dflt: V)
    requires size >= 1 && NoDup(keys) && keys != []
    ensures var n := ChunkLen(size, |keys|);
      var first := RunChunk(cache, keys[..n], fill, dflt);
      var rest := RunChunks(first.cache, keys[n..], size, fill, dflt);
      var r := RunChunks(cache, keys, size, fill, dflt);
      && r.cache == rest.cache
      && r.out == first.out + rest.out
      && (first.sent == [] ==> r.sent == rest.sent)
      && (first.sent != [] ==> r.sent == [first.sent[0]] + rest.sent)
  {
    SplitDisjoint(keys, ChunkLen(size, |keys|));
  }

  /**
   * The requests of a run: at most `ceil(|keys| / size)` of them, none
   * empty, and all of them together a duplicate-free list of input keys
   * that were not cached when the run started, so no key is requested
   * twice.
   */
  lemma RunRequests<K, V>(cache: map<K, V>, keys: seq<K>, size: nat, fill: Fill<K, V>, dflt: V)
    requires size >= 1 && NoDup(keys)
    ensures var r := RunChunks(cache, keys, size, fill, dflt);
      && |r.sent| <= CeilDiv(|keys|, size)
      && (forall i | 0 <= i < |r.sent| :: r.sent[i] != [])
      && NoDup(Concat(r.sent))
      && Elems(Concat(r.sent)) <= Elems(keys) - cache.Keys
  {
    RunRequestCount(cache, keys, size, fill, dflt);
    RunNoneEmpty(cache, keys, size, fill, dflt);
    RunRequestKeys(cache, keys, size, fill, dflt);
  }

  /** No request in `sent` is empty. */
  predicate NoneEmpty<K>(sent: seq<seq<K>>) {
    forall i | 0 <= i < |sent| :: sent[i] != []
  }

  /** A nonempty request followed by nonempty ones. */
  lemma NoneEmptyCons<K>(q: seq<K>, sent: seq<seq<K>>)
    requires q != [] && NoneEmpty(sent)
    ensures NoneEmpty([q] + sent)
  {
    forall i | 0 < i < |[q] + sent|
      ensures ([q] + sent)[i] != []
    {
      assert ([q] + sent)[i] == sent[i - 1];
    }
  }

  /** A run sends at most one request per chunk. */
  lemma {:induction false} RunRequestCount<K, V>(cache: map<K, V>, keys: seq<K>, size: nat, fill: Fill<K, V>, dflt: V)
    requires size >= 1 && NoDup(keys)
    ensures |RunChunks(cache, keys, size, fill, dflt).sent| <= CeilDiv(|keys|, size)
    decreases |keys|
  {
    if keys != [] {
      var n := ChunkLen(size, |keys|);
      SplitDisjoint(keys, n);
      var first := RunChunk(cache, keys[..n], fill, dflt);
      var rest := RunChunks(first.cache, keys[n..], size, fill, dflt);
      RunSentSplit(cache, keys, size, fill, dflt);
      RunRequestCount(first.cache, keys[n..], size, fill, dflt);
      ChunkCount(|keys|, |keys[n..]|, size, |RunChunks(cache, keys, size, fill, dflt).sent|, |rest.sent|);
    }
  }

  /** A run sends no empty request. */
  lemma {:induction false} RunNoneEmpty<K, V>(cache: map<K, V>, keys: seq<K>, size: nat, fill: Fill<K, V>, dflt: V)
    requires size >= 1 && NoDup(keys)
    ensures NoneEmpty(RunChunks(cache, keys, size, fill, dflt).sent)
    decreases |keys|
  {
    if keys != [] {
      var n := ChunkLen(size, |keys|);
      SplitDisjoint(keys, n);
      var first := RunChunk(cache, keys[..n], fill, dflt);
      var rest := RunChunks(first.cache, keys[n..], size, fill, dflt);
      RunSentSplit(cache, keys, size, fill, dflt);
      RunNoneEmpty(first.cache, keys[n..], size, fill, dflt);
      if first.sent != [] {
        RunChunkSent(cache, keys[..n], fill, dflt);
        NoneEmptyCons(first.sent[0], rest.sent);
      }
    }
  }

  /** The keys a run requests are distinct input keys the cache lacked when it started. */
  lemma {:induction false} RunRequestKeys<K, V>(cache: map<K, V>, keys: seq<K>, size: nat, fill: Fill<K, V>, dflt: V)
    requires size >= 1 && NoDup(keys)
    ensures var r := RunChunks(cache, keys, size, fill, dflt);
      && NoDup(Concat(r.sent))
      && Elems(Concat(r.sent)) <= Elems(keys) - cache.Keys
    decreases |keys|
  {
    if keys != [] {
      var n := ChunkLen(size, |keys|);
      SplitDisjoint(keys, n);
      var first := RunChunk(cache, keys[..n], fill, dflt);
      var rest := RunChunks(first.cache, keys[n..], size, fill, dflt);
      RunSentSplit(cache, keys, size, fill, dflt);
      RunRequestKeys(first.cache, keys[n..], size, fill, dflt);
      if first.sent != [] {
        var q := first.sent[0];
        RunChunkSent(cache, keys[..n], fill, dflt);
        ConcatCons(q, rest.sent);
        NoDupAppend(q, Concat(rest.sent));
      }
    }
  }

  /** All keys of one request and then of more requests. */
  lemma ConcatCons<K>(q: seq<K>, sent: seq<seq<K>>)
    ensures Concat([q] + sent) == q + Concat(sent)
  {
    assert ([q] + sent)[1..] == sent;
  }

  /**
   * A run only adds cache entries, and every entry it adds or changes was
   * written by the answer to one of its requests.
   */
  lemma {:induction false} RunCacheKeys<K, V>(cache: map<K, V>, keys: seq<K>, size: nat, fill: Fill<K, V>, dflt: V)
    requires size >= 1 && NoDup(keys)
    ensures var r := RunChunks(cache, keys, size, fill, dflt);
      && cache.Keys <= r.cache.Keys
      && Touched(fill, r.sent) <= r.cache.Keys
      && r.cache.Keys <= cache.Keys + Touched(fill, r.sent)
    decreases |keys|
  {
    if keys != [] {
      var n := ChunkLen(size, |keys|);
      RunChunksSplit(cache, keys, size, fill, dflt);
      SplitDisjoint(keys, n);
      var first := RunChunk(cache, keys[..n], fill, dflt);
      var rest := RunChunks(first.cache, keys[n..], size, fill, dflt);
      var r := RunChunks(cache, keys, size, fill, dflt);
      RunCacheKeys(first.cache, keys[n..], size, fill, dflt);
      RunTouchedSplit(cache, keys, size, fill, dflt);
    }
  }

  /** A key no answer wrote has the same cache entry, or none, as before the run. */
  lemma {:induction false} RunKeeps<K, V>(cache: map<K, V>, keys: seq<K>, size: nat, fill: Fill<K, V>, dflt: V)
    requires size >= 1 && NoDup(keys)
    ensures var r := RunChunks(cache, keys, size, fill, dflt);
      forall k | k !in Touched(fill, r.sent) :: Get(r.cache, k) == Get(cache, k)
    decreases |keys|
  {
    if keys != [] {
      var n := ChunkLen(size, |keys|);
      RunChunksSplit(cache, keys, size, fill, dflt);
      SplitDisjoint(keys, n);
      var first := RunChunk(cache, keys[..n], fill, dflt);
      var rest := RunChunks(first.cache, keys[n..], size, fill, dflt);
      var r := RunChunks(cache, keys, size, fill, dflt);
      RunKeeps(first.cache, keys[n..], size, fill, dflt);
      RunTouchedSplit(cache, keys, size, fill, dflt);
    }
  }

  /**
   * A key of the run that no answer wrote reads its entry from the cache
   * the run started with, or `dflt` when it had none.
   */
  lemma RunUntouched<K, V>(cache: map<K, V>, keys: seq<K>, size: nat, fill: Fill<K, V>, dflt: V)
    requires size >= 1 && NoDup(keys)
    ensures var r := RunChunks(cache, keys, size, fill, dflt);
      forall k | k in keys && k !in Touched(fill, r.sent) :: r.out[k] == Get(cache, k).GetOr(dflt)
  {
    var r := RunChunks(cache, keys, size, fill, dflt);
    forall k | k in keys && k !in Touched(fill, r.sent)
      ensures r.out[k] == Get(cache, k).GetOr(dflt)
    {
      UntouchedKey(cache, keys, size, fill, dflt, k);
    }
  }

  /** `RunUntouched` for one key. */
  lemma {:induction false} UntouchedKey<K, V>(cache: map<K, V>, keys: seq<K>, size: nat, fill: Fill<K, V>, dflt: V, k: K)
    requires size >= 1 && NoDup(keys)
    requires k in keys && k !in Touched(fill, RunChunks(cache, keys, size, fill, dflt).sent)
    ensures RunChunks(cache, keys, size, fill, dflt).out[k] == Get(cache, k).GetOr(dflt)
    decreases |keys|
  {
    var n := ChunkLen(size, |keys|);
    RunChunksSplit(cache, keys, size, fill, dflt);
    RunTouchedSplit(cache, keys, size, fill, dflt);
    SplitDisjoint(keys, n);
    var first := RunChunk(cache, keys[..n], fill, dflt);
    assert Get(first.cache, k) == Get(cache, k);
    assert k in Elems(keys);
    if k in Elems(keys[..n]) {
      RunChunkOut(cache, keys[..n], fill, dflt);
    } else {
      assert k in keys[n..];
      UntouchedKey(first.cache, keys[n..], size, fill, dflt, k);
    }
  }

  /** The requests of a run: the first chunk's request, if it sent one, then the rest's. */
  lemma RunSentSplit<K, V>(cache: map<K, V>, keys: seq<K>, size: nat, fill: Fill<K, V>, dflt: V)
    requires size >= 1 && NoDup(keys) && keys != []
    ensures var n := ChunkLen(size, |keys|);
      var first := RunChunk(cache, keys[..n], fill, dflt);
      var rest := RunChunks(first.cache, keys[n..], size, fill, dflt);
      var sent := RunChunks(cache, keys, size, fill, dflt).sent;
      && (first.sent == [] ==> sent == rest.sent)
      && (first.sent != [] ==> sent == [first.sent[0]] + rest.sent)
  {
    var n := ChunkLen(size, |keys|);
    SplitDisjoint(keys, n);
    var first := RunChunk(cache, keys[..n], fill, dflt);
    var rest := RunChunks(first.cache, keys[n..], size, fill, dflt);
    assert RunChunks(cache, keys, size, fill, dflt).sent == first.sent + rest.sent;
    if first.sent != [] {
      assert first.sent == [first.sent[0]];
    } else {
      assert first.sent + rest.sent == rest.sent;
    }
  }

  /** The answers of a run write what the first chunk's answer writes and what the rest's answers write. */
  lemma RunTouchedSplit<K, V>(cache: map<K, V>, keys: seq<K>, size: nat, fill: Fill<K, V>, dflt: V)
    requires size >= 1 && NoDup(keys) && keys != []
    ensures var n := ChunkLen(size, |keys|);
      var first := RunChunk(cache, keys[..n], fill, dflt);
      var rest := RunChunks(first.cache, keys[n..], size, fill, dflt);
      var t := Touched(fill, RunChunks(cache, keys, size, fill, dflt).sent);
      && (first.sent == [] ==> t == Touched(fill, rest.sent))
      && (first.sent != [] ==> t == fill(first.sent[0]).Keys + Touched(fill, rest.sent))
  {
    var n := ChunkLen(size, |keys|);
    RunSentSplit(cache, keys, size, fill, dflt);
    SplitDisjoint(keys, n);
    var first := RunChunk(cache, keys[..n], fill, dflt);
    if first.sent != [] {
      TouchedCons(fill, first.sent[0], RunChunks(first.cache, keys[n..], size, fill, dflt).sent);
    }
  }

  /** What the answers to one request and then to more requests write. */
  lemma TouchedCons<K, V>(fill: Fill<K, V>, q: seq<K>, sent: seq<seq<K>>)
    ensures Touched(fill, [q] + sent) == fill(q).Keys + Touched(fill, sent)
  {
    assert ([q] + sent)[1..] == sent;
  }

  /**
   * When every answer writes only keys of its own request (an answer that
   * echoes what it was asked, or a failure), no later request can change
   * what an earlier chunk read: every key reads its final cache entry, or
   * `dflt` when it has none.
   */
  lemma {:induction false} SoundFillOut<K, V>(cache: map<K, V>, keys: seq<K>, size: nat, fill: Fill<K, V>, dflt: V)
    requires size >= 1 && NoDup(keys)
    requires forall ks :: fill(ks).Keys <= Elems(ks)
    ensures var r := RunChunks(cache, keys, size, fill, dflt);
      forall k | k in keys :: r.out[k] == Get(r.cache, k).GetOr(dflt)
    decreases |keys|
  {
    if keys != [] {
      var n := ChunkLen(size, |keys|);
      RunChunksSplit(cache, keys, size, fill, dflt);
      SplitDisjoint(keys, n);
      var first := RunChunk(cache, keys[..n], fill, dflt);
      var rest := RunChunks(first.cache, keys[n..], size, fill, dflt);
      var r := RunChunks(cache, keys, size, fill, dflt);
      SoundFillOut(first.cache, keys[n..], size, fill, dflt);
      RunKeeps(first.cache, keys[n..], size, fill, dflt);
      SoundRestUntouched(first.cache, keys, size, fill, dflt);
      RunChunkOut(cache, keys[..n], fill, dflt);
      forall k | k in keys
        ensures r.out[k] == Get(r.cache, k).GetOr(dflt)
      {
        assert k in Elems(keys);
        if k in Elems(keys[..n]) {
          assert r.out[k] == first.out[k];
        } else {
          assert k in keys[n..];
          assert r.out[k] == rest.out[k];
        }
      }
    }
  }

  /** Under a sound fill, the chunks after the first write no key of the first. */
  lemma SoundRestUntouched<K, V>(cache: map<K, V>, keys: seq<K>, size: nat, fill: Fill<K, V>, dflt: V)
    requires size >= 1 && NoDup(keys) && keys != []
    requires forall ks :: fill(ks).Keys <= Elems(ks)
    ensures var n := ChunkLen(size, |keys|);
      Touched(fill, RunChunks(cache, keys[n..], size, fill, dflt).sent) !! Elems(keys[..n])
  {
    var n := ChunkLen(size, |keys|);
    SplitDisjoint(keys, n);
    RunRequests(cache, keys[n..], size, fill, dflt);
    SoundTouched(fill, RunChunks(cache, keys[n..], size, fill, dflt).sent);
  }

  /**
   * Under a sound fill, a requested key ends the run holding exactly what
   * its own request's answer wrote for it, and no entry if the answer left
   * it out.
   */
  lemma SoundFillRequested<K, V>(cache: map<K, V>, keys: seq<K>, size: nat, fill: Fill<K, V>, dflt: V)
    requires size >= 1 && NoDup(keys)
    requires forall ks :: fill(ks).Keys <= Elems(ks)
    ensures var r := RunChunks(cache, keys, size, fill, dflt);
      forall i, k | 0 <= i < |r.sent| && k in r.sent[i] :: Get(r.cache, k) == Get(fill(r.sent[i]), k)
  {
    var r := RunChunks(cache, keys, size, fill, dflt);
    forall i, k | 0 <= i < |r.sent| && k in r.sent[i]
      ensures Get(r.cache, k) == Get(fill(r.sent[i]), k)
    {
      SoundRequestedKey(cache, keys, size, fill, dflt, i, k);
    }
  }

  /** `SoundFillRequested` for one request and one of its keys. */
  lemma {:induction false} SoundRequestedKey<K, V>(cache: map<K, V>, keys: seq<K>, size: nat, fill: Fill<K, V>, dflt: V, i: nat, k: K)
    requires size >= 1 && NoDup(keys)
    requires forall ks :: fill(ks).Keys <= Elems(ks)
    requires var r := RunChunks(cache, keys, size, fill, dflt);
      i < |r.sent| && k in r.sent[i]
    ensures var r := RunChunks(cache, keys, size, fill, dflt);
      Get(r.cache, k) == Get(fill(r.sent[i]), k)
    decreases |keys|
  {
    var n := ChunkLen(size, |keys|);
    RunChunksSplit(cache, keys, size, fill, dflt);
    SplitDisjoint(keys, n);
    var first := RunChunk(cache, keys[..n], fill, dflt);
    var rest := RunChunks(first.cache, keys[n..], size, fill, dflt);
    var r := RunChunks(cache, keys, size, fill, dflt);
    if first.sent == [] {
      SoundRequestedKey(first.cache, keys[n..], size, fill, dflt, i, k);
    } else if i == 0 {
      SoundFirstRequested(cache, keys, size, fill, dflt, k);
    } else {
      assert r.sent[1..] == rest.sent;
      assert r.sent[i] == r.sent[1..][i - 1];
      SoundRequestedKey(first.cache, keys[n..], size, fill, dflt, i - 1, k);
    }
  }

  /** A key of the first request holds what that request's answer wrote for it. */
  lemma SoundFirstRequested<K, V>(cache: map<K, V>, keys: seq<K>, size: nat, fill: Fill<K, V>, dflt: V, k: K)
    requires size >= 1 && NoDup(keys) && keys != []
    requires forall ks :: fill(ks).Keys <= Elems(ks)
    requires var first := RunChunk(cache, keys[..ChunkLen(size, |keys|)], fill, dflt);
      first.sent != [] && k in first.sent[0]
    ensures var first := RunChunk(cache, keys[..ChunkLen(size, |keys|)], fill, dflt);
      Get(RunChunks(cache, keys, size, fill, dflt).cache, k) == Get(fill(first.sent[0]), k)
  {
    var n := ChunkLen(size, |keys|);
    RunChunksSplit(cache, keys, size, fill, dflt);
    SplitDisjoint(keys, n);
    var first := RunChunk(cache, keys[..n], fill, dflt);
    var q := first.sent[0];
    RunChunkSent(cache, keys[..n], fill, dflt);
    RunKeeps(first.cache, keys[n..], size, fill, dflt);
    SoundRestUntouched(first.cache, keys, size, fill, dflt);
    assert k in Elems(q);
    assert k !in cache;
    assert Get(first.cache, k) == Get(fill(q), k);
  }

  /** Under a fill that writes only requested keys, only requested keys are written. */
  lemma {:induction false} SoundTouched<K, V>(fill: Fill<K, V>, sent: seq<seq<K>>)
    requires forall ks :: fill(ks).Keys <= Elems(ks)
    ensures Touched(fill, sent) <= Elems(Concat(sent))
  {
    if sent != [] {
      SoundTouched(fill, sent[1..]);
      assert Elems(Concat(sent)) == Elems(sent[0]) + Elems(Concat(sent[1..]));
    }
  }

  /**
   * When every answer writes at least the keys it was asked for (a failure
   * writes its terminal value for each), every key of the run is cached
   * afterwards, so the same call again sends no request.
   */
  lemma {:induction false} CoveringFillRun<K, V>(cache: map<K, V>, keys: seq<K>, size: nat, fill: Fill<K, V>, dflt: V)
    requires size >= 1 && NoDup(keys)
    requires forall ks :: Elems(ks) <= fill(ks).Keys
    ensures var r := RunChunks(cache, keys, size, fill, dflt);
      && Elems(keys) <= r.cache.Keys
      && RunChunks(r.cache, keys, size, fill, dflt).sent == []
    decreases |keys|
  {
    if keys != [] {
      var n := ChunkLen(size, |keys|);
      RunChunksSplit(cache, keys, size, fill, dflt);
      SplitDisjoint(keys, n);
      var first := RunChunk(cache, keys[..n], fill, dflt);
      CoveringFillRun(first.cache, keys[n..], size, fill, dflt);
      RunCacheKeys(first.cache, keys[n..], size, fill, dflt);
      ChunkCovered(cache, keys[..n], fill, dflt);
    }
    RunAllCached(RunChunks(cache, keys, size, fill, dflt).cache, keys, size, fill, dflt);
  }

  /** Under a covering fill, a chunk leaves every one of its keys cached. */
  lemma ChunkCovered<K, V>(cache: map<K, V>, chunk: seq<K>, fill: Fill<K, V>, dflt: V)
    requires NoDup(chunk)
    requires forall ks :: Elems(ks) <= fill(ks).Keys
    ensures Elems(chunk) <= RunChunk(cache, chunk, fill, dflt).cache.Keys
  {
    var r := RunChunk(cache, chunk, fill, dflt);
    RunChunkSent(cache, chunk, fill, dflt);
    if r.sent != [] {
      var q := r.sent[0];
      assert Elems(q) <= fill(q).Keys;
      assert r.cache.Keys == cache.Keys + fill(q).Keys;
    }
  }

  /** What one request's answer wrote is among the keys the run's answers wrote. */
  lemma {:induction false} TouchedHas<K, V>(fill: Fill<K, V>, sent: seq<seq<K>>, i: nat)
    requires i < |sent|
    ensures fill(sent[i]).Keys <= Touched(fill, sent)
  {
    if i > 0 {
      TouchedHas(fill, sent[1..], i - 1);
    }
  }

  /** A key that was not cached and that no answer wrote stays uncached and reads `dflt`. */
  lemma UntouchedUncached<K, V>(cache: map<K, V>, keys: seq<K>, size: nat, fill: Fill<K, V>, dflt: V, k: K)
    requires size >= 1 && NoDup(keys)
    requires k in keys && k !in cache
    requires k !in Touched(fill, RunChunks(cache, keys, size, fill, dflt).sent)
    ensures var r := RunChunks(cache, keys, size, fill, dflt);
      k !in r.cache && r.out[k] == dflt
  {
    RunKeeps(cache, keys, size, fill, dflt);
    RunUntouched(cache, keys, size, fill, dflt);
  }

  /** A key of the joined requests belongs to one of them. */
  lemma {:induction false} ConcatHas<K>(sent: seq<seq<K>>, k: K)
    requires k in Concat(sent)
    ensures exists i | 0 <= i < |sent| :: k in sent[i]
  {
    if k !in sent[0] {
      ConcatHas(sent[1..], k);
      var i :| 0 <= i < |sent[1..]| && k in sent[1..][i];
      assert k in sent[i + 1];
    }
  }

  /** Under a sound fill, a key that was already cached keeps its entry. */
  lemma SoundHit<K, V>(cache: map<K, V>, keys: seq<K>, size: nat, fill: Fill<K, V>, dflt: V, k: K)
    requires size >= 1 && NoDup(keys)
    requires forall ks :: fill(ks).Keys <= Elems(ks)
    requires k in cache
    ensures Get(RunChunks(cache, keys, size, fill, dflt).cache, k) == Some(cache[k])
  {
    var r := RunChunks(cache, keys, size, fill, dflt);
    RunRequests(cache, keys, size, fill, dflt);
    SoundTouched(fill, r.sent);
    RunKeeps(cache, keys, size, fill, dflt);
  }

  /** Under a sound fill, a key the run found uncached and then cached was requested. */
  lemma SoundMissRequested<K, V>(cache: map<K, V>, keys: seq<K>, size: nat, fill: Fill<K, V>, dflt: V, k: K)
    requires size >= 1 && NoDup(keys)
    requires forall ks :: fill(ks).Keys <= Elems(ks)
    requires k !in cache && k in RunChunks(cache, keys, size, fill, dflt).cache
    ensures var r := RunChunks(cache, keys, size, fill, dflt);
      exists i | 0 <= i < |r.sent| :: k in r.sent[i]
  {
    var r := RunChunks(cache, keys, size, fill, dflt);
    RunCacheKeys(cache, keys, size, fill, dflt);
    SoundTouched(fill, r.sent);
    assert k in Elems(Concat(r.sent));
    ConcatHas(r.sent, k);
  }

  /**
   * Under a fill that writes exactly the requested keys, a key of the run
   * ends up cached and reads its final entry, which for a key that was
   * already cached is its old value.
   */
  lemma ClosedKey<K, V>(cache: map<K, V>, keys: seq<K>, size: nat, fill: Fill<K, V>, dflt: V, k: K)
    requires size >= 1 && NoDup(keys)
    requires forall ks :: fill(ks).Keys == Elems(ks)
    requires k in keys
    ensures var r := RunChunks(cache, keys, size, fill, dflt);
      && k in r.cache && r.out[k] == r.cache[k]
      && (k in cache ==> r.cache[k] == cache[k])
  {
    CoveringFillRun(cache, keys, size, fill, dflt);
    SoundFillOut(cache, keys, size, fill, dflt);
    if k in cache {
      SoundHit(cache, keys, size, fill, dflt, k);
    }
  }
}

=== FILE: graph.dfy ===
/**
 * The link graph the search explores, given by a neighbour oracle: for a
 * title, the links of its page, or `None` when fetching them fails. A
 * title whose fetch fails has no outgoing edges, which is how the search
 * treats it.
 */
module Graphs {
  import opened Wrappers
  import opened Seqs

  type Node = string

  /** `getLinks` as seen by the search: a title's links, or `None` when the call throws. */
  type Graph = Node -> Option<seq<Node>>

  /** The links of `n`; none when its fetch fails. */
  function Neighbours(g: Graph, n: Node): seq<Node> {
    if g(n).Some? then g(n).value else []
  }

  /** The oracle never fails. */
  ghost predicate Total(g: Graph) {
    forall n :: g(n).Some?
  }

  /** Each node of `w` after the first is a link of the node before it. */
  predicate IsWalk(g: Graph, w: seq<Node>) {
    forall i | 0 <= i < |w| - 1 :: w[i + 1] in Neighbours(g, w[i])
  }

  /** `w` is a walk from `a` to `b`; it has `|w| - 1` edges. */
  predicate WalkFromTo(g: Graph, w: seq<Node>, a: Node, b: Node) {
    w != [] && w[0] == a && w[|w| - 1] == b && IsWalk(g, w)
  }

  /** The nodes one edge away from some node of `s`. */
  ghost function Step(g: Graph, s: set<Node>): set<Node> {
    set n, m | n in s && m in Neighbours(g, n) :: m
  }

  /** The nodes at most `k` edges away from `a`. */
  ghost function Reach(g: Graph, a: Node, k: nat): set<Node> {
    if k == 0 then {a} else Reach(g, a, k - 1) + Step(g, Reach(g, a, k - 1))
  }

  /** The nodes exactly `k` edges away from `a`: BFS layer `k`. */
  ghost function Frontier(g: Graph, a: Node, k: nat): set<Node> {
    if k == 0 then {a} else Reach(g, a, k) - Reach(g, a, k - 1)
  }

  /** Stepping from a union is the union of the steps. */
  lemma StepUnion(g: Graph, s: set<Node>, t: set<Node>)
    ensures Step(g, s + t) == Step(g, s) + Step(g, t)
  {
  }

  /** Allowing more edges reaches at least as much. */
  lemma {:induction false} ReachGrows(g: Graph, a: Node, i: nat, j: nat)
    requires i <= j
    ensures Reach(g, a, i) <= Reach(g, a, j)
    decreases j
  {
    if i < j {
      ReachGrows(g, a, i, j - 1);
    }
  }

  /** The end of a walk from `a` is within as many edges of `a` as the walk has. */
  lemma {:induction false} WalkReaches(g: Graph, w: seq<Node>)
    requires w != [] && IsWalk(g, w)
    ensures w[|w| - 1] in Reach(g, w[0], |w| - 1)
    decreases |w|
  {
    if |w| > 1 {
      var v := w[..|w| - 1];
      assert IsWalk(g, v);
      WalkReaches(g, v);
      assert w[|w| - 1] in Neighbours(g, v[|v| - 1]);
    }
  }

  /** Conversely, every node within `k` edges of `a` ends a walk from `a` with at most `k` edges. */
  lemma ReachedByWalk(g: Graph, a: Node, k: nat, x: Node)
    requires x in Reach(g, a, k)
    ensures exists w :: WalkFromTo(g, w, a, x) && |w| <= k + 1
  {
    var w := WalkTo(g, a, k, x);
  }

  /** A walk witnessing `ReachedByWalk`, built layer by layer. */
  lemma {:induction false} WalkTo(g: Graph, a: Node, k: nat, x: Node) returns (w: seq<Node>)
    requires x in Reach(g, a, k)
    ensures WalkFromTo(g, w, a, x) && |w| <= k + 1
    decreases k
  {
    if k == 0 {
      w := [a];
    } else {
      var prev := Reach(g, a, k - 1);
      if x in prev {
        w := WalkTo(g, a, k - 1, x);
      } else {
        var n := StepFrom(g, prev, x);
        var v := WalkTo(g, a, k - 1, n);
        WalkExtend(g, v, a, n, x);
        w := v + [x];
      }
    }
  }

  /** A walk to `n` followed by a link of `n` is a walk one edge longer. */
  lemma WalkExtend(g: Graph, w: seq<Node>, a: Node, n: Node, x: Node)
    requires WalkFromTo(g, w, a, n) && x in Neighbours(g, n)
    ensures WalkFromTo(g, w + [x], a, x)
  {
    var w' := w + [x];
    forall i | 0 <= i < |w'| - 1
      ensures w'[i + 1] in Neighbours(g, w'[i])
    {
      if i < |w| - 1 {
        assert w'[i] == w[i] && w'[i + 1] == w[i + 1];
      }
    }
  }

  /** If `b` is not within `k` edges of `a`, every walk from `a` to `b` has more than `k` edges. */
  lemma NoShortWalk(g: Graph, a: Node, b: Node, k: nat)
    requires b !in Reach(g, a, k)
    ensures forall w | WalkFromTo(g, w, a, b) :: |w| > k + 1
  {
    forall w | WalkFromTo(g, w, a, b)
      ensures |w| > k + 1
    {
      WalkReaches(g, w);
      if |w| <= k + 1 {
        ReachGrows(g, a, |w| - 1, k);
      }
    }
  }

  /** Layer `k + 1` arises from stepping out of layer `k` alone. */
  lemma ReachNext(g: Graph, a: Node, k: nat)
    ensures Reach(g, a, k + 1) == Reach(g, a, k) + Step(g, Frontier(g, a, k))
  {
    if k > 0 {
      var prev := Reach(g, a, k - 1);
      assert Reach(g, a, k) == prev + Frontier(g, a, k);
      StepUnion(g, prev, Frontier(g, a, k));
    }
  }

  /** Once a layer adds no node, no later layer does either. */
  lemma {:induction false} ReachSettles(g: Graph, a: Node, k: nat, j: nat)
    requires Reach(g, a, k + 1) == Reach(g, a, k)
    requires k <= j
    ensures Reach(g, a, j) == Reach(g, a, k)
    decreases j - k
  {
    if k < j {
      var r := Reach(g, a, k);
      calc {
        Reach(g, a, k + 2);
        Reach(g, a, k + 1) + Step(g, Reach(g, a, k + 1));
        r + Step(g, r);
        Reach(g, a, k + 1);
      }
      ReachSettles(g, a, k + 1, j);
    }
  }

  /** An empty layer adds no node to the next one. */
  lemma EmptyFrontier(g: Graph, a: Node, k: nat)
    requires Frontier(g, a, k) == {}
    ensures Reach(g, a, k + 1) == Reach(g, a, k)
  {
    ReachNext(g, a, k);
    StepEmpty(g, Frontier(g, a, k));
  }

  /** Nothing is one edge away from no node. */
  lemma StepEmpty(g: Graph, s: set<Node>)
    requires s == {}
    ensures Step(g, s) == {}
  {
  }

  /** A node one edge away from `s` has a predecessor in `s`. */
  lemma StepFrom(g: Graph, s: set<Node>, x: Node) returns (n: Node)
    requires x in Step(g, s)
    ensures n in s && x in Neighbours(g, n)
  {
    n :| n in s && x in Neighbours(g, n);
  }

  /** If layer `k + 1` adds nothing and `b` is not within `k` edges of `a`, no walk leads from `a` to `b`. */
  lemma Unreachable(g: Graph, a: Node, b: Node, k: nat)
    requires Reach(g, a, k + 1) == Reach(g, a, k) && b !in Reach(g, a, k)
    ensures forall w :: !WalkFromTo(g, w, a, b)
  {
    forall w | WalkFromTo(g, w, a, b)
      ensures false
    {
      WalkReaches(g, w);
      if |w| - 1 <= k {
        ReachGrows(g, a, |w| - 1, k);
      } else {
        ReachSettles(g, a, k, |w| - 1);
      }
    }
  }

  /** The titles of `s` whose fetch succeeds: each costs one API call. */
  ghost function Fetched(g: Graph, s: set<Node>): set<Node> {
    set n | n in s && g(n).Some?
  }

  /** Successful fetches of disjoint title sets add up. */
  lemma FetchedUnion(g: Graph, a: set<Node>, b: set<Node>)
    requires a !! b
    ensures |Fetched(g, a + b)| == |Fetched(g, a)| + |Fetched(g, b)|
  {
    assert Fetched(g, a + b) == Fetched(g, a) + Fetched(g, b);
    assert Fetched(g, a) !! Fetched(g, b);
  }

  /** One more title adds one successful fetch exactly when its own fetch succeeds. */
  lemma FetchedAdd(g: Graph, a: set<Node>, x: Node)
    requires x !in a
    ensures |Fetched(g, a + {x})| == |Fetched(g, a)| + (if g(x).Some? then 1 else 0)
  {
    FetchedUnion(g, a, {x});
    if g(x).Some? {
      assert Fetched(g, {x}) == {x};
    } else {
      assert Fetched(g, {x}) == {};
    }
  }

  /** No more successful fetches than titles. */
  lemma FetchedSize(g: Graph, s: set<Node>)
    ensures |Fetched(g, s)| <= |s|
  {
    var f := Fetched(g, s);
    assert s == f + (s - f);
    assert f !! (s - f);
  }

  /**
   * The titles whose links a level-by-level search has fetched before
   * layer `k`: none before layer 0, and those within `k - 1` edges after.
   */
  ghost function Explored(g: Graph, a: Node, k: nat): set<Node> {
    if k == 0 then {} else Reach(g, a, k - 1)
  }

  /** Layer `k` is what lies within `k` edges and was not explored before it. */
  lemma ExploredSplit(g: Graph, a: Node, k: nat)
    ensures Explored(g, a, k) + Frontier(g, a, k) == Reach(g, a, k)
    ensures Explored(g, a, k) !! Frontier(g, a, k)
    ensures Explored(g, a, k + 1) == Reach(g, a, k)
    ensures |Reach(g, a, k)| == |Explored(g, a, k)| + |Frontier(g, a, k)|
  {
    if k > 0 {
      ReachGrows(g, a, k - 1, k);
    }
    assert Explored(g, a, k) * Frontier(g, a, k) == {};
  }

  /** How many titles of `s`, counted with repeats, are fetched successfully: the API calls of dequeuing them in turn. */
  function Fetches(g: Graph, s: seq<Node>): (n: nat)
    ensures n <= |s|
    decreases |s|
  {
    if s == [] then 0 else Fetches(g, s[..|s| - 1]) + (if g(s[|s| - 1]).Some? then 1 else 0)
  }

  /** Dequeuing one more title adds one API call exactly when its fetch succeeds. */
  lemma FetchesSnoc(g: Graph, s: seq<Node>, x: Node)
    ensures Fetches(g, s + [x]) == Fetches(g, s) + (if g(x).Some? then 1 else 0)
  {
    assert (s + [x])[..|s|] == s;
  }

  /** Over titles without repeats, the count is the number of titles whose fetch succeeds. */
  lemma {:induction false} FetchesDistinct(g: Graph, s: seq<Node>)
    requires NoDup(s)
    ensures Fetches(g, s) == |Fetched(g, Elems(s))|
    decreases |s|
  {
    if s != [] {
      var init, x := s[..|s| - 1], s[|s| - 1];
      FetchesDistinct(g, init);
      assert s == init + [x];
      ElemsSnoc(init, x);
      assert NoDup(init);
      assert x !in Elems(init);
      FetchedAdd(g, Elems(init), x);
    }
  }
}

=== FILE: links.dfy ===
/**
 * The link fetcher (`getLinks` in src/wiki.js): a cache-first lookup of the
 * article titles a page links to, collected over a paginated remote query
 * and cached only when every page arrived.
 */
module Links {
  import opened Wrappers
  import opened Seqs

  type Title = string

  /** The query-string parameters of one request, as `URLSearchParams` sees them. */
  type Params = map<string, string>

  /**
   * One decoded response: the link titles of each page object in
   * `query.pages` (a page without `links` contributes none) and the
   * `continue` object, if the response has one.
   */
  datatype Response = Response(pages: seq<seq<Title>>, cont: Option<Params>)

  /** The remote API: a response, or `None` when the request throws. */
  type Service = Params -> Option<Response>

  /** The parameters of the first request for `title`. */
  function FirstParams(title: Title): (p: Params)
    ensures "titles" in p && p["titles"] == title
    ensures "prop" in p && p["prop"] == "links"
    ensures "plnamespace" in p && p["plnamespace"] == "0"
  {
    map["action" := "query", "prop" := "links", "titles" := title,
        "plnamespace" := "0", "pllimit" := "max", "format" := "json"]
  }

  /** `{ ...params, ...cont }`: the continuation's keys override the previous parameters. */
  function Continue(params: Params, cont: Params): Params {
    params + cont
  }

  /** The continuation's keys override the previous parameters; all others are kept. */
  lemma ContinueOverrides(params: Params, cont: Params)
    ensures var p := Continue(params, cont);
      && p.Keys == params.Keys + cont.Keys
      && (forall k | k in cont :: p[k] == cont[k])
      && (forall k | k in params && k !in cont :: p[k] == params[k])
  {
  }

  /** All link titles of one response, page after page. */
  function Flatten(pages: seq<seq<Title>>): seq<Title> {
    if pages == [] then [] else pages[0] + Flatten(pages[1..])
  }

  /** A title is among the flattened links exactly when some page lists it. */
  lemma {:induction false} FlattenHas(pages: seq<seq<Title>>)
    ensures forall t :: t in Flatten(pages) <==> exists i | 0 <= i < |pages| :: t in pages[i]
  {
    if pages != [] {
      FlattenHas(pages[1..]);
      assert forall t, i | 0 <= i < |pages[1..]| :: t in pages[1..][i] <==> t in pages[i + 1];
    }
  }

  /**
   * The reference meaning of a complete pagination: the set of every link
   * title on every page of the chain of requests that starts with `params`
   * and follows each `continue`; `None` when some request fails or the chain
   * is longer than `fuel` requests.
   */
  ghost function ChainLinks(svc: Service, params: Params, fuel: nat): Option<set<Title>>
    decreases fuel
  {
    if fuel == 0 then None
    else match svc(params)
      case None => None
      case Some(resp) =>
        match resp.cont
        case None => Some(Elems(Flatten(resp.pages)))
        case Some(c) =>
          match ChainLinks(svc, Continue(params, c), fuel - 1)
          case None => None
          case Some(rest) => Some(Elems(Flatten(resp.pages)) + rest)
  }

  /** The number of requests the chain starting with `params` issues. */
  ghost function ChainRequests(svc: Service, params: Params, fuel: nat): nat
    decreases fuel
  {
    if fuel == 0 then 0
    else match svc(params)
      case None => 1
      case Some(resp) =>
        match resp.cont
        case None => 1
        case Some(c) => 1 + ChainRequests(svc, Continue(params, c), fuel - 1)
  }

  /** How a pagination ended. */
  datatype Pages =
    | Complete(links: seq<Title>, requests: nat)
    | Failed(requests: nat)
    | Unfinished

  /**
   * The `while (true)` loop: request a page, add its links to the
   * insertion-ordered set `acc`, and follow `continue` until none remains.
   * Any failed request ends the whole pagination.
   */
  function Paginate(svc: Service, params: Params, acc: seq<Title>, fuel: nat): (r: Pages)
    requires NoDup(acc)
    decreases fuel
  {
    if fuel == 0 then Unfinished
    else match svc(params)
      case None => Failed(1)
      case Some(resp) =>
        var acc' := AddAll(acc, Flatten(resp.pages));
        match resp.cont
        case None => Complete(acc', 1)
        case Some(c) =>
          Counted(Paginate(svc, Continue(params, c), acc', fuel - 1))
  }

  /** The outcome of the rest of a pagination, with the request before it counted. */
  function Counted(rest: Pages): Pages {
    match rest
    case Complete(links, n) => Complete(links, n + 1)
    case Failed(n) => Failed(n + 1)
    case Unfinished => Unfinished
  }

  /** One request that succeeds and asks to continue: the pagination carries on from the next parameters. */
  lemma PaginateStep(svc: Service, params: Params, acc: seq<Title>, fuel: nat)
    requires NoDup(acc) && fuel > 0 && svc(params).Some? && svc(params).value.cont.Some?
    ensures var resp := svc(params).value;
      Paginate(svc, params, acc, fuel)
        == Counted(Paginate(svc, Continue(params, resp.cont.value), AddAll(acc, Flatten(resp.pages)), fuel - 1))
  {
  }

  /** The same step for the reference chain. */
  lemma ChainStep(svc: Service, params: Params, fuel: nat)
    requires fuel > 0 && svc(params).Some? && svc(params).value.cont.Some?
    ensures var resp := svc(params).value;
      var next := Continue(params, resp.cont.value);
      var chain := ChainLinks(svc, next, fuel - 1);
      && (ChainLinks(svc, params, fuel).Some? <==> chain.Some?)
      && (chain.Some? ==> ChainLinks(svc, params, fuel).value == Elems(Flatten(resp.pages)) + chain.value)
      && ChainRequests(svc, params, fuel) == 1 + ChainRequests(svc, next, fuel - 1)
  {
  }

  /**
   * A completed pagination holds no title twice and keeps the titles it
   * started with, in their order, in front.
   */
  lemma {:induction false} PaginateKeeps(svc: Service, params: Params, acc: seq<Title>, fuel: nat)
    requires NoDup(acc)
    ensures var r := Paginate(svc, params, acc, fuel);
      r.Complete? ==> NoDup(r.links) && |acc| <= |r.links| && r.links[..|acc|] == acc
    decreases fuel
  {
    if fuel > 0 && svc(params).Some? && svc(params).value.cont.Some? {
      var resp := svc(params).value;
      var next, acc' := Continue(params, resp.cont.value), AddAll(acc, Flatten(resp.pages));
      PaginateStep(svc, params, acc, fuel);
      PaginateKeeps(svc, next, acc', fuel - 1);
      var r' := Paginate(svc, next, acc', fuel - 1);
      if r'.Complete? {
        assert r'.links[..|acc|] == r'.links[..|acc'|][..|acc|];
      }
    }
  }

  /**
   * A pagination completes exactly when the chain of requests does, and then
   * it holds the titles it started with plus every link title of the chain.
   */
  lemma {:induction false} PaginateLinks(svc: Service, params: Params, acc: seq<Title>, fuel: nat)
    requires NoDup(acc)
    ensures var r := Paginate(svc, params, acc, fuel);
      && (r.Complete? <==> ChainLinks(svc, params, fuel).Some?)
      && (r.Complete? ==> Elems(r.links) == Elems(acc) + ChainLinks(svc, params, fuel).value)
    decreases fuel
  {
    if fuel > 0 && svc(params).Some? && svc(params).value.cont.Some? {
      var resp := svc(params).value;
      var here, next := Flatten(resp.pages), Continue(params, resp.cont.value);
      var acc' := AddAll(acc, here);
      PaginateStep(svc, params, acc, fuel);
      ChainStep(svc, params, fuel);
      PaginateLinks(svc, next, acc', fuel - 1);
      var r := Paginate(svc, params, acc, fuel);
      if r.Complete? {
        var rest := ChainLinks(svc, next, fuel - 1).value;
        UnionAssoc(Elems(acc), Elems(here), rest);
        assert Elems(r.links) == Elems(acc) + (Elems(here) + rest);
      }
    }
  }

  /**
   * A pagination that completes or fails issued every request of the chain,
   * at least one; one that runs out of fuel issued `fuel` of them.
   */
  lemma {:induction false} PaginateRequests(svc: Service, params: Params, acc: seq<Title>, fuel: nat)
    requires NoDup(acc)
    ensures var r := Paginate(svc, params, acc, fuel);
      && (!r.Unfinished? ==> 1 <= r.requests == ChainRequests(svc, params, fuel))
      && (r.Unfinished? ==> ChainRequests(svc, params, fuel) == fuel)
    decreases fuel
  {
    if fuel > 0 && svc(params).Some? && svc(params).value.cont.Some? {
      var resp := svc(params).value;
      var next, acc' := Continue(params, resp.cont.value), AddAll(acc, Flatten(resp.pages));
      PaginateStep(svc, params, acc, fuel);
      ChainStep(svc, params, fuel);
      PaginateRequests(svc, next, acc', fuel - 1);
    }
  }

  /** The outcome of one `getLinks` call and the link cache it leaves. */
  datatype LinksCall = LinksCall(result: Result<seq<Title>, string>, cache: map<Title, seq<Title>>, requests: nat)

  /**
   * `getLinks(title)`: a cache hit returns the stored array without any
   * request; on a miss the pages are collected and, only if every request
   * succeeded, the result is stored before it is returned.
   */
  function GetLinks(cache: map<Title, seq<Title>>, title: Title, svc: Service, fuel: nat): (r: LinksCall)
    ensures title in cache ==> r == LinksCall(Success(cache[title]), cache, 0)
    ensures title !in cache && r.result.Success? ==>
      && ChainLinks(svc, FirstParams(title), fuel) == Some(Elems(r.result.value))
      && NoDup(r.result.value)
      && r.cache == cache[title := r.result.value]
      && 1 <= r.requests
    ensures title !in cache ==>
      (r.result.Success? <==> ChainLinks(svc, FirstParams(title), fuel).Some?)
    ensures r.result.Failure? ==> r.cache == cache
    ensures title !in cache ==> r.requests == ChainRequests(svc, FirstParams(title), fuel)
  {
    if title in cache then LinksCall(Success(cache[title]), cache, 0)
    else
      var params := FirstParams(title);
      var pages := Paginate(svc, params, [], fuel);
      PaginateKeeps(svc, params, [], fuel);
      PaginateLinks(svc, params, [], fuel);
      PaginateRequests(svc, params, [], fuel);
      assert pages.Complete? ==> Elems(pages.links) == ChainLinks(svc, params, fuel).value;
      match pages
      case Complete(links, n) => LinksCall(Success(links), cache[title := links], n)
      case Failed(n) => LinksCall(Failure("request failed"), cache, n)
      case Unfinished => LinksCall(Failure("pagination did not finish"), cache, fuel)
  }

  /**
   * After a successful call the title is cached: calling again with the
   * cache it left returns the same links and issues no request, whatever the
   * remote service would now answer.
   */
  lemma SecondCallHits(cache: map<Title, seq<Title>>, title: Title, svc: Service, svc': Service, fuel: nat, fuel': nat)
    requires GetLinks(cache, title, svc, fuel).result.Success?
    ensures var first := GetLinks(cache, title, svc, fuel);
      GetLinks(first.cache, title, svc', fuel') == LinksCall(first.result, first.cache, 0)
  {
  }

  /**
   * A call depends on the cache only through the entry for its own title, so
   * entries other searches or other titles wrote do not change its outcome.
   */
  lemma OnlyOwnEntryMatters(c1: map<Title, seq<Title>>, c2: map<Title, seq<Title>>, title: Title, svc: Service, fuel: nat)
    requires Get(c1, title) == Get(c2, title)
    ensures GetLinks(c1, title, svc, fuel).result == GetLinks(c2, title, svc, fuel).result
    ensures GetLinks(c1, title, svc, fuel).requests == GetLinks(c2, title, svc, fuel).requests
  {
  }
}

=== FILE: seqs.dfy ===
/** Sequence helpers: element sets, duplicate-freedom, insertion-ordered sets. */
module Seqs {

  /** The set of elements of `s`. */
  function Elems<T>(s: seq<T>): set<T> {
    set x | x in s
  }

  /** No element of `s` occurs twice. */
  predicate NoDup<T(==)>(s: seq<T>) {
    forall i, j | 0 <= i < j < |s| :: s[i] != s[j]
  }

  /**
   * Adds the elements of `xs`, in order, to the insertion-ordered set `acc`,
   * skipping those already present: JavaScript's `Set.prototype.add` applied
   * to each element in turn, read back with `Array.from`.
   */
  function AddAll<T(==)>(acc: seq<T>, xs: seq<T>): (r: seq<T>)
    requires NoDup(acc)
    ensures NoDup(r)
    ensures Elems(r) == Elems(acc) + Elems(xs)
    ensures |acc| <= |r| && r[..|acc|] == acc
    decreases |xs|
  {
    if xs == [] then acc
    else
      var acc' := if xs[0] in acc then acc else acc + [xs[0]];
      assert Elems(xs) == {xs[0]} + Elems(xs[1..]);
      assert Elems(acc') == Elems(acc) + {xs[0]};
      var r := AddAll(acc', xs[1..]);
      assert r[..|acc|] == r[..|acc'|][..|acc|];
      r
  }

  /** `Array.from(new Set(s))`: the distinct elements of `s` in first-occurrence order. */
  function Dedup<T(==)>(s: seq<T>): (r: seq<T>)
    ensures NoDup(r)
    ensures Elems(r) == Elems(s)
    ensures |r| == |Elems(s)|
  {
    var r := AddAll([], s);
    NoDupSize(r);
    r
  }

  /**
   * Adding one more element to the insertion-ordered set appends it exactly
   * when it is new: `Set.prototype.add` on the result of `AddAll`.
   */
  lemma {:induction false} AddAllSnoc<T>(acc: seq<T>, xs: seq<T>, x: T)
    requires NoDup(acc)
    ensures AddAll(acc, xs + [x]) == if x in AddAll(acc, xs) then AddAll(acc, xs) else AddAll(acc, xs) + [x]
    decreases |xs|
  {
    if xs == [] {
      assert xs + [x] == [x];
      assert [x][1..] == [];
    } else {
      assert (xs + [x])[0] == xs[0] && (xs + [x])[1..] == xs[1..] + [x];
      var acc' := if xs[0] in acc then acc else acc + [xs[0]];
      AddAllSnoc(acc', xs[1..], x);
    }
  }

  /**
   * `Dedup` keeps first-occurrence order: deduplicating `s + [x]` appends
   * `x` to the deduplication of `s` exactly when `x` does not occur in `s`.
   */
  lemma DedupSnoc<T>(s: seq<T>, x: T)
    ensures Dedup(s + [x]) == if x in s then Dedup(s) else Dedup(s) + [x]
  {
    AddAllSnoc([], s, x);
    assert x in Dedup(s) <==> x in Elems(Dedup(s));
  }

  /** A single element is its own deduplication. */
  lemma DedupOne<T>(x: T)
    ensures Dedup([x]) == [x]
  {
    var r := Dedup([x]);
    assert Elems([x]) == {x};
    assert r[0] in Elems(r);
    assert r == [r[0]];
  }

  /** A duplicate-free sequence has as many elements as its element set. */
  lemma {:induction false} NoDupSize<T>(s: seq<T>)
    requires NoDup(s)
    ensures |Elems(s)| == |s|
  {
    if s != [] {
      var t := s[..|s| - 1];
      assert NoDup(t);
      NoDupSize(t);
      assert s == t + [s[|s| - 1]];
      assert Elems(s) == Elems(t) + {s[|s| - 1]};
      assert s[|s| - 1] !in Elems(t);
    }
  }

  /**
   * The number of slices of at most `d` elements that `n` elements fall
   * into; `CeilDivBounds` shows it is `ceil(n / d)`.
   */
  function CeilDiv(n: nat, d: nat): nat
    requires d >= 1
    decreases n
  {
    if n == 0 then 0
    else if n <= d then 1
    else 1 + CeilDiv(n - d, d)
  }

  /** `CeilDiv(n, d)` is the least `c` with `n <= c * d`. */
  lemma {:induction false} CeilDivBounds(n: nat, d: nat)
    requires d >= 1
    ensures n == 0 ==> CeilDiv(n, d) == 0
    ensures n > 0 ==> (CeilDiv(n, d) - 1) * d < n <= CeilDiv(n, d) * d
    decreases n
  {
    if n > d {
      var c := CeilDiv(n - d, d);
      CeilDivBounds(n - d, d);
      assert (c + 1) * d == c * d + d;
      assert (c - 1) * d + d == c * d;
    }
  }

  /** More elements never make fewer slices. */
  lemma {:induction false} CeilDivMono(a: nat, b: nat, d: nat)
    requires d >= 1 && a <= b
    ensures CeilDiv(a, d) <= CeilDiv(b, d)
    decreases b
  {
    if a > 0 && b > d {
      if a > d {
        CeilDivMono(a - d, b - d, d);
      }
    }
  }

  /** A sequence has at most as many distinct elements as positions. */
  lemma {:induction false} ElemsSize<T>(s: seq<T>)
    ensures |Elems(s)| <= |s|
  {
    if s != [] {
      ElemsSize(s[1..]);
      assert Elems(s) == {s[0]} + Elems(s[1..]);
    }
  }

  /** Joining two duplicate-free sequences with no common element gives a duplicate-free sequence. */
  lemma NoDupAppend<T>(a: seq<T>, b: seq<T>)
    requires NoDup(a) && NoDup(b) && Elems(a) !! Elems(b)
    ensures NoDup(a + b)
    ensures Elems(a + b) == Elems(a) + Elems(b)
  {
    forall i, j | 0 <= i < j < |a + b|
      ensures (a + b)[i] != (a + b)[j]
    {
      if j >= |a| && i < |a| {
        assert (a + b)[i] in Elems(a);
        assert (a + b)[j] == b[j - |a|];
        assert (a + b)[j] in Elems(b);
      }
    }
  }

  /** Union is associative. */
  lemma UnionAssoc<T>(a: set<T>, b: set<T>, c: set<T>)
    ensures a + b + c == a + (b + c)
  {
  }

  /** Concatenation is associative. */
  lemma ConcatAssoc<T>(x: seq<T>, y: seq<T>, z: seq<T>)
    ensures x + y + z == x + (y + z)
  {
  }

  /** Appending one element adds it to the element set. */
  lemma ElemsSnoc<T>(s: seq<T>, x: T)
    ensures Elems(s + [x]) == Elems(s) + {x}
  {
  }

  /** Adding the elements of a duplicate-free sequence disjoint from `a` grows `a` by its length. */
  lemma {:induction false} DisjointAddSize<T>(a: set<T>, s: seq<T>)
    requires NoDup(s) && Elems(s) !! a
    ensures |a + Elems(s)| == |a| + |s|
    decreases |s|
  {
    if s != [] {
      var init := s[..|s| - 1];
      var x := s[|s| - 1];
      assert s == init + [x];
      ElemsSnoc(init, x);
      assert NoDup(init);
      assert x !in Elems(init);
      DisjointAddSize(a, init);
      assert a + Elems(s) == (a + Elems(init)) + {x};
    }
  }
}

=== FILE: titles.dfy ===
/**
 * Title normalisation (`normalizeTitle` in src/utils.js), restricted to ASCII:
 * trim surrounding whitespace, upper-case every word-initial character
 * (`/\b\w/g`), then replace every whitespace run with one underscore
 * (`/\s+/g`).
 */
module Titles {
  import opened Seqs

  /** JavaScript's `\s` on ASCII: space, tab, line feed, vertical tab, form feed, carriage return. */
  predicate IsSpace(c: char) {
    c == ' ' || '\t' <= c <= '\r'
  }

  /** JavaScript's `\w`: an ASCII letter, digit or underscore. */
  predicate IsWordChar(c: char) {
    'a' <= c <= 'z' || 'A' <= c <= 'Z' || '0' <= c <= '9' || c == '_'
  }

  /** `String.prototype.toUpperCase` on one ASCII character. */
  function Upper(c: char): (u: char)
    ensures 'a' <= c <= 'z' ==> 'A' <= u <= 'Z' && u as int == c as int - 32
    ensures !('a' <= c <= 'z') ==> u == c
  {
    if 'a' <= c <= 'z' then (c as int - 32) as char else c
  }

  predicate AllSpace(s: string) {
    forall i | 0 <= i < |s| :: IsSpace(s[i])
  }

  /** Every character of `s` from index `lo` up to (not including) `hi` is whitespace. */
  predicate SpacesIn(s: string, lo: nat, hi: nat)
    requires lo <= hi <= |s|
  {
    forall k | lo <= k < hi :: IsSpace(s[k])
  }

  predicate NoSpace(s: string) {
    forall i | 0 <= i < |s| :: !IsSpace(s[i])
  }

  /** The first index at or after `i` that does not hold whitespace (`|s|` when there is none). */
  function SkipSpaces(s: string, i: nat): (j: nat)
    requires i <= |s|
    ensures i <= j <= |s| && SpacesIn(s, i, j)
    ensures j == |s| || !IsSpace(s[j])
    decreases |s| - i
  {
    if i < |s| && IsSpace(s[i]) then SkipSpaces(s, i + 1) else i
  }

  /** Walks back from `j` over whitespace, but not below `lo`. */
  function BackSpaces(s: string, lo: nat, j: nat): (k: nat)
    requires lo <= j <= |s|
    ensures lo <= k <= j && SpacesIn(s, k, j)
    ensures k == lo || !IsSpace(s[k - 1])
    decreases j
  {
    if lo < j && IsSpace(s[j - 1]) then BackSpaces(s, lo, j - 1) else j
  }

  /**
   * `String.prototype.trim`: the result is the slice of `s` starting at its
   * first non-whitespace character; it neither starts nor ends with
   * whitespace, and everything cut away is whitespace.
   */
  function Trim(s: string): (r: string)
    ensures var i := SkipSpaces(s, 0);
      && i + |r| <= |s| && r == s[i..i + |r|]
      && SpacesIn(s, 0, i) && SpacesIn(s, i + |r|, |s|)
    ensures r == [] || (!IsSpace(r[0]) && !IsSpace(r[|r| - 1]))
  {
    var i := SkipSpaces(s, 0);
    s[i..BackSpaces(s, i, |s|)]
  }

  /**
   * `\b\w` matches position `i` of `s`: `s[i]` is a word character and the
   * character before it (or, at `i == 0`, the context described by
   * `prevWord`) is not.
   */
  predicate WordStart(prevWord: bool, s: string, i: nat)
    requires i < |s|
  {
    IsWordChar(s[i]) && if i == 0 then !prevWord else !IsWordChar(s[i - 1])
  }

  /**
   * `s.replace(/\b\w/g, c => c.toUpperCase())`, scanning `s` as if it were
   * preceded by a word character exactly when `prevWord` holds.
   */
  function CapitalizeAfter(prevWord: bool, s: string): (r: string)
    ensures |r| == |s|
    ensures forall i | 0 <= i < |s| :: r[i] == if WordStart(prevWord, s, i) then Upper(s[i]) else s[i]
    decreases |s|
  {
    if s == [] then []
    else
      var c := if IsWordChar(s[0]) && !prevWord then Upper(s[0]) else s[0];
      var rest := CapitalizeAfter(IsWordChar(s[0]), s[1..]);
      var r := [c] + rest;
      assert forall i | 1 <= i < |s| ::
        r[i] == rest[i - 1] && s[i] == s[1..][i - 1] && WordStart(prevWord, s, i) == WordStart(IsWordChar(s[0]), s[1..], i - 1);
      r
  }

  /** The regular expression's view of a string: `\b` holds at its start. */
  function Capitalize(s: string): (r: string)
    ensures |r| == |s|
  {
    CapitalizeAfter(false, s)
  }

  /** Upper-casing keeps a character's class: word, whitespace, or neither. */
  lemma UpperKeepsClass(c: char)
    ensures IsWordChar(Upper(c)) == IsWordChar(c)
    ensures IsSpace(Upper(c)) == IsSpace(c)
    ensures Upper(c) == '_' <==> c == '_'
    ensures Upper(Upper(c)) == Upper(c)
  {
  }

  /** The first character of a capitalised string is upper-cased; the last one keeps its class. */
  lemma CapitalizeEnds(t: string)
    ensures t != [] ==> Capitalize(t)[0] == Upper(t[0])
    ensures t != [] ==> (Capitalize(t)[|t| - 1] == '_' <==> t[|t| - 1] == '_')
    ensures t != [] ==> (IsSpace(Capitalize(t)[|t| - 1]) <==> IsSpace(t[|t| - 1]))
    ensures t != [] ==> (IsSpace(Capitalize(t)[0]) <==> IsSpace(t[0]))
  {
    if t != [] {
      UpperKeepsClass(t[0]);
      UpperKeepsClass(t[|t| - 1]);
    }
  }

  /** Drops a leading whitespace run; `DropSpacesCut` states what is dropped. */
  function DropSpaces(s: string): (r: string)
    ensures |r| <= |s|
    decreases |s|
  {
    if s != [] && IsSpace(s[0]) then DropSpaces(s[1..]) else s
  }

  /** `DropSpaces` cuts off exactly the leading whitespace run. */
  lemma {:induction false} DropSpacesCut(s: string)
    ensures var r := DropSpaces(s);
      && r == s[|s| - |r|..]
      && AllSpace(s[..|s| - |r|])
      && (r == [] || !IsSpace(r[0]))
    decreases |s|
  {
    if s != [] && IsSpace(s[0]) {
      DropSpacesCut(s[1..]);
      var r := DropSpaces(s);
      assert s[..|s| - |r|] == [s[0]] + s[1..][..|s| - 1 - |r|];
    }
  }

  /**
   * `s.replace(/\s+/g, "_")`: every maximal whitespace run becomes one
   * underscore; other characters are kept.
   */
  function CollapseSpaces(s: string): (r: string)
    ensures NoSpace(r)
    ensures |r| <= |s|
    ensures s != [] ==> r != []
    decreases |s|
  {
    if s == [] then []
    else if IsSpace(s[0]) then "_" + CollapseSpaces(DropSpaces(s[1..]))
    else [s[0]] + CollapseSpaces(s[1..])
  }

  /** A string without whitespace is left unchanged. */
  lemma {:induction false} CollapseNoSpace(s: string)
    requires NoSpace(s)
    ensures CollapseSpaces(s) == s
    decreases |s|
  {
    if s != [] {
      assert NoSpace(s[1..]);
      CollapseNoSpace(s[1..]);
    }
  }

  /** A first or last character that is not whitespace survives in place. */
  lemma {:induction false} CollapseKeepsEnds(s: string)
    requires s != []
    ensures !IsSpace(s[0]) ==> CollapseSpaces(s)[0] == s[0]
    ensures !IsSpace(s[|s| - 1]) ==> CollapseSpaces(s)[|CollapseSpaces(s)| - 1] == s[|s| - 1]
    decreases |s|
  {
    var r := CollapseSpaces(s);
    if !IsSpace(s[|s| - 1]) {
      if IsSpace(s[0]) {
        var d := DropSpaces(s);
        DropSpacesCut(s);
        assert d != [] && d[|d| - 1] == s[|s| - 1];
        CollapseKeepsEnds(d);
      } else if |s| > 1 {
        CollapseKeepsEnds(s[1..]);
      }
    }
  }

  /**
   * The run rule: a non-empty whitespace run between a part that does not
   * end in whitespace and a part that does not start with it collapses to
   * exactly one underscore, and the two parts are collapsed independently.
   */
  lemma CollapseRun(a: string, w: string, b: string)
    requires a == [] || !IsSpace(a[|a| - 1])
    requires w != [] && AllSpace(w)
    requires b == [] || !IsSpace(b[0])
    ensures CollapseSpaces(a + w + b) == CollapseSpaces(a) + "_" + CollapseSpaces(b)
  {
    calc {
      CollapseSpaces(a + w + b);
      { ConcatAssoc(a, w, b); }
      CollapseSpaces(a + (w + b));
      { CollapseAppend(a, w + b); }
      CollapseSpaces(a) + CollapseSpaces(w + b);
      { RunHead(w, b); }
      CollapseSpaces(a) + ("_" + CollapseSpaces(b));
      { ConcatAssoc(CollapseSpaces(a), "_", CollapseSpaces(b)); }
      CollapseSpaces(a) + "_" + CollapseSpaces(b);
    }
  }

  /** A whitespace run in front of a part that does not start with whitespace becomes one underscore. */
  lemma RunHead(w: string, b: string)
    requires w != [] && AllSpace(w)
    requires b == [] || !IsSpace(b[0])
    ensures CollapseSpaces(w + b) == "_" + CollapseSpaces(b)
  {
    var x := w + b;
    assert x[0] == w[0] && x[1..] == w[1..] + b;
    DropRun(w[1..], b);
  }

  /** Collapsing splits after a character that is not whitespace. */
  lemma {:induction false} CollapseAppend(x: string, y: string)
    requires x == [] || !IsSpace(x[|x| - 1])
    ensures CollapseSpaces(x + y) == CollapseSpaces(x) + CollapseSpaces(y)
    decreases |x|
  {
    if x == [] {
      assert x + y == y;
    } else if IsSpace(x[0]) {
      var s, xy := x[1..], x + y;
      assert xy[0] == x[0] && xy[1..] == s + y;
      DropKeepsLast(s);
      DropAppend(s, y);
      CollapseAppend(DropSpaces(s), y);
    } else if |x| == 1 {
      assert x[1..] + y == y && x[1..] + [] == [] && x + [] == x;
      CollapseWordHead(x, y);
      CollapseWordHead(x, []);
    } else {
      var t := x[1..];
      assert t + [] == t && x + [] == x;
      CollapseWordHead(x, y);
      CollapseWordHead(x, []);
      CollapseAppend(t, y);
    }
  }

  /** Leading whitespace is dropped the same with or without a suffix, once a non-space follows it. */
  lemma {:induction false} DropAppend(s: string, y: string)
    requires s != [] && !IsSpace(s[|s| - 1])
    ensures DropSpaces(s + y) == DropSpaces(s) + y
    decreases |s|
  {
    if IsSpace(s[0]) {
      assert (s + y)[0] == s[0] && (s + y)[1..] == s[1..] + y;
      DropAppend(s[1..], y);
    }
  }

  /** Dropping leading whitespace keeps a last character that is not whitespace. */
  lemma DropKeepsLast(s: string)
    requires s != [] && !IsSpace(s[|s| - 1])
    ensures var d := DropSpaces(s); d != [] && d[|d| - 1] == s[|s| - 1]
  {
    DropSpacesCut(s);
  }

  /** A leading character that is not whitespace is copied and the rest is collapsed on its own. */
  lemma CollapseWordHead(a: string, rest: string)
    requires a != [] && !IsSpace(a[0])
    ensures CollapseSpaces(a + rest) == [a[0]] + CollapseSpaces(a[1..] + rest)
  {
    var x := a + rest;
    assert x[0] == a[0] && x[1..] == a[1..] + rest;
  }

  /** Dropping a whitespace run in front of a part that does not start with whitespace leaves that part. */
  lemma {:induction false} DropRun(w: string, b: string)
    requires AllSpace(w)
    requires b == [] || !IsSpace(b[0])
    ensures DropSpaces(w + b) == b
    decreases |w|
  {
    if w != [] {
      assert (w + b)[1..] == w[1..] + b;
      DropRun(w[1..], b);
    } else {
      assert w + b == b;
    }
  }

  /**
   * `normalizeTitle(title)`: the empty string for an empty title, otherwise
   * trim, capitalise word starts, and turn whitespace runs into underscores.
   */
  function NormalizeTitle(title: string): (r: string)
    ensures title == [] ==> r == []
    ensures NoSpace(r)
    ensures |r| <= |Trim(title)|
    ensures r == [] <==> Trim(title) == []
    ensures r != [] ==> r[0] == Upper(Trim(title)[0])
    ensures r != [] ==> (r[0] == '_' <==> Trim(title)[0] == '_')
    ensures r != [] ==> (r[|r| - 1] == '_' <==> Trim(title)[|Trim(title)| - 1] == '_')
  {
    if title == [] then []
    else
      var t := Trim(title);
      var c := Capitalize(t);
      CapitalizeEnds(t);
      if c != [] then CollapseKeepsEnds(c); CollapseSpaces(c) else CollapseSpaces(c)
  }
  /**
   * Every word start of `s` (scanned after a word character exactly when
   * `prevWord` holds) already carries its upper-case form.
   */
  predicate Capitalized(prevWord: bool, s: string)
    decreases |s|
  {
    s == [] ||
    ((IsWordChar(s[0]) && !prevWord ==> Upper(s[0]) == s[0]) && Capitalized(IsWordChar(s[0]), s[1..]))
  }

  /** Capitalising leaves no lower-case word start behind. */
  lemma {:induction false} CapitalizeEstablishes(prevWord: bool, s: string)
    ensures Capitalized(prevWord, CapitalizeAfter(prevWord, s))
    decreases |s|
  {
    if s != [] {
      var r := CapitalizeAfter(prevWord, s);
      UpperKeepsClass(s[0]);
      CapitalizeEstablishes(IsWordChar(s[0]), s[1..]);
      assert r[1..] == CapitalizeAfter(IsWordChar(s[0]), s[1..]);
    }
  }

  /** Capitalising an already capitalised string changes nothing. */
  lemma {:induction false} CapitalizeFixes(prevWord: bool, s: string)
    requires Capitalized(prevWord, s)
    ensures CapitalizeAfter(prevWord, s) == s
    decreases |s|
  {
    if s != [] {
      CapitalizeFixes(IsWordChar(s[0]), s[1..]);
    }
  }

  /** A word character in front only removes word starts. */
  lemma {:induction false} CapitalizedAfterWord(s: string)
    requires Capitalized(false, s)
    ensures Capitalized(true, s)
  {
  }

  /** Dropping leading whitespace keeps a string capitalised. */
  lemma {:induction false} CapitalizedDropSpaces(s: string)
    requires Capitalized(false, s)
    ensures Capitalized(false, DropSpaces(s))
    decreases |s|
  {
    if s != [] && IsSpace(s[0]) {
      CapitalizedDropSpaces(s[1..]);
    }
  }

  /**
   * Collapsing whitespace keeps a string capitalised: the underscore it
   * introduces is a word character, so it can only remove word starts.
   */
  lemma {:induction false} CollapseKeepsCapitalized(prevWord: bool, s: string)
    requires Capitalized(prevWord, s)
    ensures Capitalized(prevWord, CollapseSpaces(s))
    decreases |s|
  {
    if s != [] {
      if IsSpace(s[0]) {
        var d := DropSpaces(s[1..]);
        CapitalizedDropSpaces(s[1..]);
        CollapseKeepsCapitalized(false, d);
        CapitalizedAfterWord(CollapseSpaces(d));
        assert ("_" + CollapseSpaces(d))[1..] == CollapseSpaces(d);
      } else {
        CollapseKeepsCapitalized(IsWordChar(s[0]), s[1..]);
        assert ([s[0]] + CollapseSpaces(s[1..]))[1..] == CollapseSpaces(s[1..]);
      }
    }
  }

  /** Trimming a string without whitespace changes nothing. */
  lemma TrimNoSpace(s: string)
    requires NoSpace(s)
    ensures Trim(s) == s
  {
  }

  /**
   * Normalising is idempotent: a normalised title has no whitespace left and
   * every word start in it is already upper-case.
   */
  lemma NormalizeIdempotent(title: string)
    ensures NormalizeTitle(NormalizeTitle(title)) == NormalizeTitle(title)
  {
    var r := NormalizeTitle(title);
    if r != [] {
      var t := Trim(title);
      CapitalizeEstablishes(false, t);
      CollapseKeepsCapitalized(false, Capitalize(t));
      assert r == CollapseSpaces(Capitalize(t));
      TrimNoSpace(r);
      CapitalizeFixes(false, r);
      CollapseNoSpace(r);
    }
  }

  /** The word context after scanning `x` from context `prevWord`. */
  function WordAfter(prevWord: bool, x: string): bool {
    if x == [] then prevWord else IsWordChar(x[|x| - 1])
  }

  /** Capitalising splits anywhere, the second part scanned in the context the first part leaves. */
  lemma CapitalizeAppend(prevWord: bool, x: string, y: string)
    ensures CapitalizeAfter(prevWord, x + y) == CapitalizeAfter(prevWord, x) + CapitalizeAfter(WordAfter(prevWord, x), y)
  {
    var xy := x + y;
    var l, rx, ry := CapitalizeAfter(prevWord, xy), CapitalizeAfter(prevWord, x), CapitalizeAfter(WordAfter(prevWord, x), y);
    assert |l| == |rx + ry|;
    forall i | 0 <= i < |xy|
      ensures l[i] == (rx + ry)[i]
    {
      CapitalizeAt(prevWord, xy, i);
      if i < |x| {
        CapitalizeAt(prevWord, x, i);
        assert xy[i] == x[i];
      } else {
        CapitalizeAt(WordAfter(prevWord, x), y, i - |x|);
        assert xy[i] == y[i - |x|];
      }
    }
  }

  /** One character of a capitalised string. */
  lemma CapitalizeAt(prevWord: bool, s: string, i: nat)
    requires i < |s|
    ensures |CapitalizeAfter(prevWord, s)| == |s|
    ensures CapitalizeAfter(prevWord, s)[i] == if WordStart(prevWord, s, i) then Upper(s[i]) else s[i]
  {
  }

  /** Whitespace holds no word start, so capitalising leaves it as it is. */
  lemma CapitalizeSpaces(prevWord: bool, w: string)
    requires AllSpace(w)
    ensures CapitalizeAfter(prevWord, w) == w
  {
    var r := CapitalizeAfter(prevWord, w);
    assert forall i | 0 <= i < |w| :: r[i] == w[i];
  }

  /**
   * A title that is one word once trimmed: each character of the result is
   * the trimmed title's character, upper-cased exactly at a word start.
   */
  lemma NormalizeWord(title: string)
    requires NoSpace(Trim(title))
    ensures var t, r := Trim(title), NormalizeTitle(title);
      && |r| == |t|
      && forall i | 0 <= i < |t| :: r[i] == if WordStart(false, t, i) then Upper(t[i]) else t[i]
  {
    var t := Trim(title);
    if title != [] {
      var c := Capitalize(t);
      forall i | 0 <= i < |c|
        ensures !IsSpace(c[i])
      {
        UpperKeepsClass(t[i]);
      }
      CollapseNoSpace(c);
    }
  }

  /**
   * A whitespace run inside the trimmed title: word starts are found in the
   * trimmed title before any substitution, and the run becomes exactly one
   * `_` between the separately normalised parts around it.
   */
  lemma NormalizeRun(title: string, a: string, w: string, b: string)
    requires Trim(title) == a + w + b
    requires a == [] || !IsSpace(a[|a| - 1])
    requires w != [] && AllSpace(w)
    requires b == [] || !IsSpace(b[0])
    ensures NormalizeTitle(title) == CollapseSpaces(Capitalize(a)) + "_" + CollapseSpaces(Capitalize(b))
  {
    var ca, cb := Capitalize(a), Capitalize(b);
    CapitalizeAppend(false, a + w, b);
    CapitalizeAppend(false, a, w);
    CapitalizeSpaces(WordAfter(false, a), w);
    assert WordAfter(false, a + w) == false;
    if a != [] {
      UpperKeepsClass(a[|a| - 1]);
    }
    if b != [] {
      UpperKeepsClass(b[0]);
    }
    CollapseRun(ca, w, cb);
  }
}

=== FILE: wikidata.dfy ===
/**
 * The Wikidata classifier of src/wikidata.js: `getWikibaseItemsBulk` maps
 * titles to Wikidata item ids through the `pageprops` query,
 * `isPersonBulk` classifies item ids as humans through `wbgetentities`, and
 * `titlesArePerson` chains the two. Both bulk lookups run the chunked,
 * cache-first driver of `Bulk`; each remote request is an oracle that
 * answers or fails.
 */
module Wikidata {
  import opened Wrappers
  import opened Seqs
  import opened Bulk

  type Title = string
  type Qid = string

  // ----- getWikibaseItemsBulk -----

  /** One page of a `pageprops` answer: the title it echoes and its `wikibase_item`, if any. */
  datatype PageProps = PageProps(title: Title, wikibaseItem: Option<string>)

  /** The `pageprops` query: the pages it answers for a list of titles, or `None` when it fails. */
  type PagePropsService = seq<Title> -> Option<seq<PageProps>>

  /** `p?.pageprops?.wikibase_item || null`: an absent or empty item id reads as null. */
  function ItemOf(p: PageProps): (r: Option<Qid>)
    ensures r.Some? <==> p.wikibaseItem.Some? && p.wikibaseItem.value != ""
    ensures r.Some? ==> r == p.wikibaseItem
  {
    match p.wikibaseItem
    case Some(q) => if q == "" then None else Some(q)
    case None => None
  }

  /** The cache writes of a successful answer: one per page, in order, keyed by the echoed title. */
  function EchoUpdates(pages: seq<PageProps>): map<Title, Option<Qid>>
    decreases |pages|
  {
    if pages == [] then map[]
    else EchoUpdates(pages[..|pages| - 1])[pages[|pages| - 1].title := ItemOf(pages[|pages| - 1])]
  }

  /**
   * A successful answer writes exactly the echoed titles; each holds the
   * item id of the last page echoing it, and none holds the empty id.
   */
  lemma {:induction false} EchoUpdatesSpec(pages: seq<PageProps>)
    ensures var r := EchoUpdates(pages);
      && r.Keys == (set p | p in pages :: p.title)
      && (forall i | 0 <= i < |pages| && LastEcho(pages, i) :: r[pages[i].title] == ItemOf(pages[i]))
      && (forall t | t in r :: r[t] != Some(""))
    decreases |pages|
  {
    if pages != [] {
      var init := pages[..|pages| - 1];
      var last := pages[|pages| - 1];
      assert pages == init + [last];
      EchoUpdatesSpec(init);
    }
  }

  /** Page `i` is the last one echoing its title. */
  predicate LastEcho(pages: seq<PageProps>, i: nat)
    requires i < |pages|
  {
    forall j | i < j < |pages| :: pages[j].title != pages[i].title
  }

  /**
   * A request's cache writes: on success the echoed pages' item ids, on
   * failure `null` for every requested title.
   */
  function WbAnswer(answer: Option<seq<PageProps>>, toFetch: seq<Title>): map<Title, Option<Qid>> {
    match answer
    case None => map t | t in Elems(toFetch) :: None
    case Some(pages) => EchoUpdates(pages)
  }

  /** The `pageprops` service as the bulk driver's fill. */
  function WbFill(svc: PagePropsService): Fill<Title, Option<Qid>> {
    (ks: seq<Title>) => WbAnswer(svc(ks), ks)
  }

  /**
   * `getWikibaseItemsBulk(titles)` against the cache `cache` and the
   * service `svc`, with `CHUNK == size`: exactly one output entry per
   * distinct title, and no request at all when every title is cached.
   */
  function GetWikibaseItemsBulk(cache: map<Title, Option<Qid>>, titles: seq<Title>, size: nat, svc: PagePropsService): (r: Run<Title, Option<Qid>>)
    requires size >= 1
    ensures r.out.Keys == Elems(titles)
    ensures Elems(titles) <= cache.Keys ==> r.sent == [] && r.cache == cache
  {
    RunAllCached(cache, Dedup(titles), size, WbFill(svc), None);
    RunChunks(cache, Dedup(titles), size, WbFill(svc), None)
  }

  /**
   * The requests of `getWikibaseItemsBulk`: at most `ceil(distinct / size)`,
   * none empty, no title in two of them or twice in one, and only titles
   * the cache lacked when the call began.
   */
  lemma WbRequests(cache: map<Title, Option<Qid>>, titles: seq<Title>, size: nat, svc: PagePropsService)
    requires size >= 1
    ensures var r := GetWikibaseItemsBulk(cache, titles, size, svc);
      && |r.sent| <= CeilDiv(|Elems(titles)|, size)
      && (forall i | 0 <= i < |r.sent| :: r.sent[i] != [])
      && NoDup(Concat(r.sent))
      && Elems(Concat(r.sent)) <= Elems(titles) - cache.Keys
  {
    RunRequests(cache, Dedup(titles), size, WbFill(svc), None);
  }

  /**
   * After a call, every title of a request that failed is cached (as `null`
   * unless a later answer echoed it), so no later call requests it again,
   * whatever titles that call asks for.
   */
  lemma WbFailureCached(cache: map<Title, Option<Qid>>, titles: seq<Title>, size: nat, svc: PagePropsService,
                        i: nat, later: seq<Title>)
    requires size >= 1
    requires var r := GetWikibaseItemsBulk(cache, titles, size, svc);
      i < |r.sent| && svc(r.sent[i]).None?
    ensures var r := GetWikibaseItemsBulk(cache, titles, size, svc);
      && Elems(r.sent[i]) <= r.cache.Keys
      && Elems(r.sent[i]) !! Elems(Concat(GetWikibaseItemsBulk(r.cache, later, size, svc).sent))
  {
    var r := GetWikibaseItemsBulk(cache, titles, size, svc);
    TouchedHas(WbFill(svc), r.sent, i);
    RunCacheKeys(cache, Dedup(titles), size, WbFill(svc), None);
    WbRequests(r.cache, later, size, svc);
  }

  /**
   * A title that was not cached and that no answer wrote (no failed request
   * held it and no successful answer echoed it) stays uncached and reads
   * as `null`.
   */
  lemma WbUnechoed(cache: map<Title, Option<Qid>>, titles: seq<Title>, size: nat, svc: PagePropsService, t: Title)
    requires size >= 1
    requires t in titles && t !in cache
    requires t !in Touched(WbFill(svc), GetWikibaseItemsBulk(cache, titles, size, svc).sent)
    ensures var r := GetWikibaseItemsBulk(cache, titles, size, svc);
      t !in r.cache && r.out[t] == None
  {
    var keys := Dedup(titles);
    assert t in Elems(keys);
    UntouchedUncached(cache, keys, size, WbFill(svc), None, t);
  }

  /**
   * An uncached title that no answer of a call wrote is requested again by
   * the next call that asks for it alone.
   */
  lemma WbRequestedAgain(cache: map<Title, Option<Qid>>, titles: seq<Title>, size: nat, svc: PagePropsService, t: Title)
    requires size >= 1
    requires t in titles && t !in cache
    requires t !in Touched(WbFill(svc), GetWikibaseItemsBulk(cache, titles, size, svc).sent)
    ensures var r := GetWikibaseItemsBulk(cache, titles, size, svc);
      GetWikibaseItemsBulk(r.cache, [t], size, svc).sent == [[t]]
  {
    var r := GetWikibaseItemsBulk(cache, titles, size, svc);
    WbUnechoed(cache, titles, size, svc, t);
    var r2 := GetWikibaseItemsBulk(r.cache, [t], size, svc);
    DedupOne(t);
    RunOneUncached(r.cache, t, size, WbFill(svc), None);
    assert r2 == RunChunks(r.cache, [t], size, WbFill(svc), None);
  }

  /** Every successful answer echoes only titles it was asked for. */
  ghost predicate EchoesRequested(svc: PagePropsService) {
    forall ks :: svc(ks).Some? ==> forall p | p in svc(ks).value :: p.title in ks
  }

  /**
   * When answers echo only requested titles, no later chunk changes what an
   * earlier one read: every title reads its final cache entry, or `null`
   * when it has none.
   */
  lemma WbEchoedOut(cache: map<Title, Option<Qid>>, titles: seq<Title>, size: nat, svc: PagePropsService)
    requires size >= 1
    requires EchoesRequested(svc)
    ensures var r := GetWikibaseItemsBulk(cache, titles, size, svc);
      forall t | t in titles :: r.out[t] == Get(r.cache, t).GetOr(None)
  {
    EchoFillSound(svc);
    var keys := Dedup(titles);
    SoundFillOut(cache, keys, size, WbFill(svc), None);
    assert forall t | t in titles :: t in Elems(keys);
  }

  /**
   * When answers echo only requested titles, a requested title ends the
   * call with what its own request wrote for it (`null` if the request
   * failed, else the item id of the page echoing it), and with no entry if
   * no page of the answer echoed it.
   */
  lemma WbEchoedRequested(cache: map<Title, Option<Qid>>, titles: seq<Title>, size: nat, svc: PagePropsService)
    requires size >= 1
    requires EchoesRequested(svc)
    ensures var r := GetWikibaseItemsBulk(cache, titles, size, svc);
      forall i, t | 0 <= i < |r.sent| && t in r.sent[i] :: Get(r.cache, t) == Get(WbAnswer(svc(r.sent[i]), r.sent[i]), t)
  {
    EchoFillSound(svc);
    var keys := Dedup(titles);
    var r := RunChunks(cache, keys, size, WbFill(svc), None);
    forall i, t | 0 <= i < |r.sent| && t in r.sent[i]
      ensures Get(r.cache, t) == Get(WbAnswer(svc(r.sent[i]), r.sent[i]), t)
    {
      SoundRequestedKey(cache, keys, size, WbFill(svc), None, i, t);
    }
  }

  /** Under `EchoesRequested`, an answer writes only requested titles. */
  lemma EchoFillSound(svc: PagePropsService)
    requires EchoesRequested(svc)
    ensures forall ks :: WbFill(svc)(ks).Keys <= Elems(ks)
  {
    forall ks
      ensures WbFill(svc)(ks).Keys <= Elems(ks)
    {
      if svc(ks).Some? {
        EchoUpdatesSpec(svc(ks).value);
      }
    }
  }

  // ----- isPersonBulk -----

  /** One claim of an entity: `mainsnak.datavalue.value.id`, when present. */
  datatype Claim = Claim(valueId: Option<string>)

  /** A Wikidata entity of a `wbgetentities` answer: its claims by property id. */
  datatype Entity = Entity(claims: map<string, seq<Claim>>)

  /** The `wbgetentities` query: the entities it answers for a list of item ids, or `None` when it fails. */
  type EntityService = seq<Qid> -> Option<map<Qid, Entity>>

  /** `ent?.claims?.P31 ?? []`: the "instance of" claims. */
  function P31(e: Entity): seq<Claim> {
    if "P31" in e.claims then e.claims["P31"] else []
  }

  /** `claims.some(c => c.mainsnak?.datavalue?.value?.id === "Q5")`, scanning left to right. */
  predicate SomeQ5(claims: seq<Claim>) {
    claims != [] && (claims[0].valueId == Some("Q5") || SomeQ5(claims[1..]))
  }

  /** The scan finds `Q5` exactly when some claim has that value. */
  lemma {:induction false} SomeQ5Exists(claims: seq<Claim>)
    ensures SomeQ5(claims) <==> exists c | c in claims :: c.valueId == Some("Q5")
  {
    if claims != [] {
      SomeQ5Exists(claims[1..]);
      assert forall c | c in claims :: c == claims[0] || c in claims[1..];
    }
  }

  /** The entity is an instance of human: some P31 claim has the value `Q5`. */
  predicate IsHuman(e: Entity) {
    SomeQ5(P31(e))
  }

  /**
   * A request's cache writes: one verdict per requested item id.
   */
  function PersonAnswer(answer: Option<map<Qid, Entity>>, toFetch: seq<Qid>): map<Qid, bool> {
    map q | q in Elems(toFetch) :: Verdict(answer, q)
  }

  /** `entities[q] || {}` classified: a failed request or a missing entity is not human. */
  function Verdict(answer: Option<map<Qid, Entity>>, q: Qid): bool {
    match answer
    case None => false
    case Some(entities) => q in entities && IsHuman(entities[q])
  }

  /** The `wbgetentities` service as the bulk driver's fill. */
  function PersonFill(svc: EntityService): Fill<Qid, bool> {
    (ks: seq<Qid>) => PersonAnswer(svc(ks), ks)
  }

  /** `qids.filter(Boolean)` on strings: the non-empty ids, in order. */
  function NonEmpty(qids: seq<Qid>): (r: seq<Qid>)
    ensures Elems(r) == Elems(qids) - {""}
    ensures |r| <= |qids|
    decreases |qids|
  {
    if qids == [] then []
    else
      assert Elems(qids) == {qids[0]} + Elems(qids[1..]);
      var rest := NonEmpty(qids[1..]);
      if qids[0] == "" then rest
      else
        assert Elems([qids[0]] + rest) == {qids[0]} + Elems(rest);
        [qids[0]] + rest
  }

  /**
   * `isPersonBulk(qids)` against the cache `cache` and the service `svc`,
   * with `CHUNK == size`: exactly one output entry per distinct non-empty
   * id, and no request at all when every one of them is cached.
   */
  function IsPersonBulk(cache: map<Qid, bool>, qids: seq<Qid>, size: nat, svc: EntityService): (r: Run<Qid, bool>)
    requires size >= 1
    ensures r.out.Keys == Elems(qids) - {""}
    ensures Elems(qids) - {""} <= cache.Keys ==> r.sent == [] && r.cache == cache
  {
    RunAllCached(cache, Dedup(NonEmpty(qids)), size, PersonFill(svc), false);
    RunChunks(cache, Dedup(NonEmpty(qids)), size, PersonFill(svc), false)
  }

  /** Every answer writes exactly the ids it was asked for. */
  lemma PersonFillClosed(svc: EntityService)
    ensures forall ks :: PersonFill(svc)(ks).Keys == Elems(ks)
  {
    forall ks
      ensures PersonFill(svc)(ks).Keys == Elems(ks)
    {
      assert PersonFill(svc)(ks) == PersonAnswer(svc(ks), ks);
    }
  }

  /**
   * The requests of `isPersonBulk`: at most `ceil(distinct / size)` for the
   * distinct non-empty ids, none empty, no id twice, and only ids the cache
   * lacked when the call began.
   */
  lemma PersonRequests(cache: map<Qid, bool>, qids: seq<Qid>, size: nat, svc: EntityService)
    requires size >= 1
    ensures var r := IsPersonBulk(cache, qids, size, svc);
      && |r.sent| <= CeilDiv(|Elems(qids) - {""}|, size)
      && (forall i | 0 <= i < |r.sent| :: r.sent[i] != [])
      && NoDup(Concat(r.sent))
      && Elems(Concat(r.sent)) <= Elems(qids) - {""} - cache.Keys
  {
    RunRequests(cache, Dedup(NonEmpty(qids)), size, PersonFill(svc), false);
  }

  /**
   * After `isPersonBulk` every non-empty id is cached and reads its cache
   * entry, and an id that was cached before the call keeps its value.
   */
  lemma PersonCached(cache: map<Qid, bool>, qids: seq<Qid>, size: nat, svc: EntityService)
    requires size >= 1
    ensures var r := IsPersonBulk(cache, qids, size, svc);
      && (forall q | q in r.out :: q in r.cache && r.out[q] == r.cache[q])
      && (forall q | q in r.out && q in cache :: r.out[q] == cache[q])
  {
    var keys := Dedup(NonEmpty(qids));
    var fill := PersonFill(svc);
    var r := RunChunks(cache, keys, size, fill, false);
    forall q | q in r.out
      ensures q in r.cache && r.out[q] == r.cache[q]
      ensures q in cache ==> r.out[q] == cache[q]
    {
      PersonFillClosed(svc);
      ClosedKey(cache, keys, size, fill, false, q);
    }
  }

  /**
   * A requested id ends `isPersonBulk` cached as whether its own request's
   * answer holds a human entity for it: `false` when that request failed or
   * its answer lacks the id.
   */
  lemma PersonRequested(cache: map<Qid, bool>, qids: seq<Qid>, size: nat, svc: EntityService)
    requires size >= 1
    ensures var r := IsPersonBulk(cache, qids, size, svc);
      forall i, q | 0 <= i < |r.sent| && q in r.sent[i] :: Get(r.cache, q) == Some(Verdict(svc(r.sent[i]), q))
  {
    var keys := Dedup(NonEmpty(qids));
    var fill := PersonFill(svc);
    var r := RunChunks(cache, keys, size, fill, false);
    forall i, q | 0 <= i < |r.sent| && q in r.sent[i]
      ensures Get(r.cache, q) == Some(Verdict(svc(r.sent[i]), q))
    {
      PersonFillClosed(svc);
      SoundRequestedKey(cache, keys, size, fill, false, i, q);
      assert q in Elems(r.sent[i]);
    }
  }

  /** A repeat `isPersonBulk` call with the cache the first one left sends no request. */
  lemma PersonNoRefetch(cache: map<Qid, bool>, qids: seq<Qid>, size: nat, svc: EntityService)
    requires size >= 1
    ensures var r := IsPersonBulk(cache, qids, size, svc);
      IsPersonBulk(r.cache, qids, size, svc).sent == []
  {
    PersonFillClosed(svc);
    CoveringFillRun(cache, Dedup(NonEmpty(qids)), size, PersonFill(svc), false);
  }

  /**
   * One id's `isPersonBulk` output: the old value if it was cached, else
   * whether the answer to a request holding it classified it as human.
   */
  lemma PersonKey(cache: map<Qid, bool>, qids: seq<Qid>, size: nat, svc: EntityService, q: Qid)
    requires size >= 1
    requires q in IsPersonBulk(cache, qids, size, svc).out
    ensures var r := IsPersonBulk(cache, qids, size, svc);
      r.out[q] == if q in cache then cache[q]
                  else exists i | 0 <= i < |r.sent| :: q in r.sent[i] && Verdict(svc(r.sent[i]), q)
  {
    var keys := Dedup(NonEmpty(qids));
    var fill := PersonFill(svc);
    var r := RunChunks(cache, keys, size, fill, false);
    PersonFillClosed(svc);
    ClosedKey(cache, keys, size, fill, false, q);
    if q !in cache {
      SoundMissRequested(cache, keys, size, fill, false, q);
      var i0 :| 0 <= i0 < |r.sent| && q in r.sent[i0];
      SoundRequestedKey(cache, keys, size, fill, false, i0, q);
      assert q in Elems(r.sent[i0]);
      forall i | 0 <= i < |r.sent| && q in r.sent[i] && Verdict(svc(r.sent[i]), q)
        ensures r.out[q]
      {
        SoundRequestedKey(cache, keys, size, fill, false, i, q);
        assert q in Elems(r.sent[i]);
      }
    }
  }

  // ----- titlesArePerson -----

  /** What `titlesArePerson` computes: both bulk runs and the title-to-boolean output. */
  datatype Classified = Classified(wb: Run<Title, Option<Qid>>, person: Run<Qid, bool>, out: map<Title, bool>)

  /** `Object.values(titleToQid)` without the nulls: the item ids of the titles, in title order. */
  function QidsOf(items: map<Title, Option<Qid>>, ts: seq<Title>): (r: seq<Qid>)
    requires Elems(ts) <= items.Keys
    ensures |r| <= |ts|
    ensures forall t | t in Elems(ts) && items[t].Some? :: items[t].value in r
    ensures forall q | q in r :: exists t | t in ts :: items[t] == Some(q)
    decreases |ts|
  {
    if ts == [] then []
    else
      assert Elems(ts) == {ts[0]} + Elems(ts[1..]);
      var rest := QidsOf(items, ts[1..]);
      assert forall t | t in ts[1..] :: t in ts;
      if items[ts[0]].Some? then [items[ts[0]].value] + rest else rest
  }

  /**
   * `titlesArePerson(titles)`: look up the titles' item ids, classify the
   * non-null ones, and answer per title: one output entry per title.
   */
  function TitlesArePerson(wbCache: map<Title, Option<Qid>>, personCache: map<Qid, bool>, titles: seq<Title>, size: nat,
                           wbSvc: PagePropsService, personSvc: EntityService): (r: Classified)
    requires size >= 1
    ensures r.out.Keys == Elems(titles)
    ensures r.wb == GetWikibaseItemsBulk(wbCache, titles, size, wbSvc)
    ensures r.out.Keys <= r.wb.out.Keys
  {
    var wb := GetWikibaseItemsBulk(wbCache, titles, size, wbSvc);
    var keys := Dedup(titles);
    var qids := QidsOf(wb.out, keys);
    var person := IsPersonBulk(personCache, qids, size, personSvc);
    Classified(wb, person, Answer(wb.out, person.out, Elems(titles)))
  }

  /** `out[t] = q ? qidMap[q] === true : false` for every title `t`. */
  function Answer(items: map<Title, Option<Qid>>, persons: map<Qid, bool>, ts: set<Title>): (r: map<Title, bool>)
    requires ts <= items.Keys
    ensures r.Keys == ts
  {
    map t | t in ts :: items[t].Some? && items[t].value in persons && persons[items[t].value]
  }

  /**
   * A title is classified as a person exactly when its item id is non-null
   * and non-empty and that id was either cached as a person before the
   * call, or uncached and classified as human by the answer to a request
   * holding it.
   */
  lemma TitleIsPerson(wbCache: map<Title, Option<Qid>>, personCache: map<Qid, bool>, titles: seq<Title>, size: nat,
                      wbSvc: PagePropsService, personSvc: EntityService, t: Title)
    requires size >= 1
    requires t in titles
    ensures var r := TitlesArePerson(wbCache, personCache, titles, size, wbSvc, personSvc);
      r.out[t] <==> && r.wb.out[t].Some? && r.wb.out[t].value != ""
                    && var q := r.wb.out[t].value;
                       if q in personCache then personCache[q]
                       else exists i | 0 <= i < |r.person.sent| :: q in r.person.sent[i] && Verdict(personSvc(r.person.sent[i]), q)
  {
    var r := TitlesArePerson(wbCache, personCache, titles, size, wbSvc, personSvc);
    var keys := Dedup(titles);
    var qids := QidsOf(r.wb.out, keys);
    assert r.person == IsPersonBulk(personCache, qids, size, personSvc);
    assert t in Elems(titles);
    if r.wb.out[t].Some? && r.wb.out[t].value != "" {
      var q := r.wb.out[t].value;
      assert t in Elems(keys);
      assert q in qids;
      assert q in Elems(qids);
      PersonKey(personCache, qids, size, personSvc, q);
    }
  }

  /**
   * `titlesArePerson` sends at most `ceil(distinct / size)` requests for
   * item ids and as many again for classification, `distinct` being the
   * number of distinct titles.
   */
  lemma TitlesRequests(wbCache: map<Title, Option<Qid>>, personCache: map<Qid, bool>, titles: seq<Title>, size: nat,
                       wbSvc: PagePropsService, personSvc: EntityService)
    requires size >= 1
    ensures var r := TitlesArePerson(wbCache, personCache, titles, size, wbSvc, personSvc);
      |r.wb.sent| + |r.person.sent| <= 2 * CeilDiv(|Elems(titles)|, size)
  {
    var r := TitlesArePerson(wbCache, personCache, titles, size, wbSvc, personSvc);
    var keys := Dedup(titles);
    var qids := QidsOf(r.wb.out, keys);
    assert r.person == IsPersonBulk(personCache, qids, size, personSvc);
    WbRequests(wbCache, titles, size, wbSvc);
    PersonRequests(personCache, qids, size, personSvc);
    ElemsSize(qids);
    assert |Elems(qids) - {""}| <= |Elems(qids)|;
    CeilDivMono(|Elems(qids) - {""}|, |Elems(titles)|, size);
  }
}

=== FILE: wrappers.dfy ===
/** Failure-carrying wrappers shared by every module of the model. */
module Wrappers {

  /** `Some(v)` for a value, `None` for JavaScript's `null` / a failed remote call. */
  datatype Option<+T> = None | Some(value: T) {

    /** The wrapped value, or `default` for `None` (JavaScript's `x ?? default`). */
    function GetOr(default: T): T {
      match this
      case Some(v) => v
      case None => default
    }
  }

  /** The outcome of an operation that may throw. */
  datatype Result<+R, +E> = Success(value: R) | Failure(error: E)

  /** The value stored under `k`, or `None` when `m` has no entry for it. */
  function Get<K, V>(m: map<K, V>, k: K): Option<V> {
    if k in m then Some(m[k]) else None
  }
}
